=== FILE: README.md ===
# Aegis payment-screening core, modelled in Dafny

Aegis screens payments on a hot path written in C++ and has a Python sidecar for slower analysis. This project models the deterministic core of both halves as pure Dafny functions and proves what they promise.

On the C++ side, the model covers:
- the single-producer/single-consumer ring buffer that carries payments between threads;
- the ISO 20022 credit-transfer decoder with its fixed-point amount reader;
- the sharded per-entity risk store: FNV-1a shard selection, a velocity counter, the structuring band, a capped linear score and double-buffered rules;
- the worker step that counts, scores, serialises and forwards each payment;
- the file-replay ingress.

On the Python side, it covers:
- the digital analyst's velocity, structuring and reason-code logic;
- the bridge's per-debtor history window, masking and block and proof-trigger decisions;
- the hash-chained audit ledger;
- the jurisdiction rules;
- the license key generator and validator.

Some things are parameters in the model rather than calls:
- **Clocks.** `steady_clock` and `time.time()` are the parameter `now`. A request to the bridge reads the clock twice: the bridge's own reading stamps the history and audit entries, and the analyst's later reading decides which entries are recent. These are two parameters, `now` and `analystNow`, and nothing relates them.
- **Parsed XML.** The decoder takes an already-parsed tree; an unloadable line is `None`.
- **Hashes and encoders.** SHA-256, HMAC, base64url and JSON are uninterpreted function values.
- **Laws of those functions.** What a lemma needs of them is stated as its precondition, and only for the inputs at hand. Examples are: the stored seal differs from the hash of the edited contents; JSON and base64url decoding undo their encoders on the payload being signed; there is no "." in that payload's encoding or its signature.
- **Byte strings.** On the C++ side a `string` stands for a byte string: each character is one byte (below 256), and text in a multibyte encoding appears as its UTF-8 bytes. The bounded copies, the message length and the FNV-1a hash all count and read bytes. The Python side's strings are sequences of characters as Python sees them.
- **Threads, atomics and locks.** These are dropped; every operation is one sequential step.

Files and modules:
- `wrappers.dfy` (`Wrappers`): `Option` and `Result`.
- `bits.dfy` (`Bits`): `x & (2^k - 1)` as `MaskLow`, and its equality with `x % 2^k`.
- `decimal.dfy` (`Decimal`): decimal digit strings, their values and `%lld` formatting.
- `ring_buffer.dfy` (`RingBuffer`): `LockFreeRingBuffer`, with the abstract FIFO `Contents()`.
- `iso_parser.dfy` (`IsoParser`): `PaymentData` and `IsoParser::parse`.
- `risk_engine.dfy` (`RiskEngine`): `FastRiskEngine`.
- `worker.dfy` (`Worker`): `risk_worker`'s per-item body, amount formatting and `FileIngress::run`.
- `digital_analyst.dfy` (`DigitalAnalyst`): `DigitalAnalyst`.
- `ai_bridge.dfy` (`AiBridge`): `process_risk_analysis`.
- `audit_ledger.dfy` (`AuditLedger`): `DatabaseLedger`.
- `rules_engine.dfy` (`RulesEngine`): `RulesEngine`.
- `license_manager.dfy` (`LicenseManager`): `LicenseManager`.

Two behaviours of the code are easy to misread, and the model keeps both:
- **Empty transaction id.** The decoder checks only that a `UETR` or `EndToEndId` element exists, so an empty one is accepted (src/cpp/hft_core.hpp:118-123). `WellFormed` therefore bounds the id's length but does not require it to be non-empty.
- **Debtor name in clear.** The worker writes the debtor name into the forwarded record unmasked (src/cpp/main.cpp:99-102), and `Worker.Payload` does the same.

## Model

| member | source | states |
|---|---|---|
| RingBuffer.Ring.Push | src/cpp/hft_core.hpp:53-64 | Push succeeds exactly when fewer than Size−1 items wait. On success the item is stored at the old head, the tail is untouched and the FIFO contents gain the item at the back. On failure the buffer is unchanged. |
| RingBuffer.Ring.Pop | src/cpp/hft_core.hpp:66-75 | Pop fails exactly when the queue is empty, leaving it unchanged. Otherwise it returns the front item, the contents lose their front, and the array and head are untouched. |
| RingBuffer.Ring.IsFull | src/cpp/hft_core.hpp:77-81 | `is_full` holds exactly when Size−1 items are waiting. |
| RingBuffer.Ring.IsFullIffPushFails | src/cpp/hft_core.hpp:53-81 | `is_full` is true exactly when `push` would be refused. |
| RingBuffer.Ring.NextIsSuccessor | src/cpp/hft_core.hpp:55 | `(i + 1) & (Size - 1)` is `i + 1`, except at the last slot, where it wraps to 0. |
| RingBuffer.Empty | src/cpp/hft_core.hpp:48-50 | A new buffer, with both indices at 0, is valid and empty. |
| RingBuffer.PushAllAppends | src/cpp/hft_core.hpp:53-64 | While there is room, successive pushes all succeed and append the items in order. |
| RingBuffer.FillFromEmpty | src/cpp/tests/cpp/test_ring_buffer.cpp:42-67 | From empty, N−1 pushes succeed and leave exactly those items queued. The buffer then reports full and the next push fails. |
| RingBuffer.PopNTakesFront | src/cpp/hft_core.hpp:66-75 | Popping n items yields the first n queued items and leaves the rest, wherever the indices sit. Popping past the end yields only what was there. |
| RingBuffer.FifoOrder | src/cpp/tests/cpp/test_ring_buffer.cpp:69-98 | Items pushed behind a queue come out after it, in push order, across wrap-around. |
| Bits.MaskLowIsMod | src/cpp/risk_engine.hpp:98 | Masking with `2^k - 1` is reduction modulo `2^k`, the identity the power-of-two sizes rely on. |
| Decimal.NatToString | src/cpp/main.cpp:99-102 | Decimal printing gives digits only, with no leading zero, whose value is the number. |
| IsoParser.FirstNamed | src/cpp/hft_core.hpp:102-119 | `child(name)` only ever finds an element carrying the tag asked for. |
| IsoParser.FirstNamedSpec | src/cpp/hft_core.hpp:102-119 | `child(name)` finds nothing exactly when no child has the tag. Otherwise it finds a child with the tag that no earlier child has. |
| IsoParser.FirstNamedAt | src/cpp/hft_core.hpp:102-119 | A child with the tag, preceded by none with it, is what `child(name)` finds. |
| IsoParser.AttributeValue | src/cpp/hft_core.hpp:139 | A non-empty attribute value comes from an attribute of that name. A missing attribute reads as "". |
| IsoParser.AttributeValueFirst | src/cpp/hft_core.hpp:139 | The value read is the first attribute with that name, or "" when no attribute has that name. |
| IsoParser.Truncate | src/cpp/hft_core.hpp:122-134 | The bounded copy keeps the first min(len, n) characters of the text. |
| IsoParser.LeadingDigits | src/cpp/hft_core.hpp:161-164 | The integral loop stops at the first non-digit: the run it consumes is all digits and is maximal. |
| IsoParser.LeadingDigitsUnique | src/cpp/hft_core.hpp:161-164 | The integral run ends exactly at the first non-digit. Any position preceded only by digits and sitting at a non-digit, or at the end, is the run's length. |
| IsoParser.FractionMicros | src/cpp/hft_core.hpp:166-180 | The fractional part read and zero-padded to six digits is always below 10^6. |
| IsoParser.ParseDigitRun | src/cpp/hft_core.hpp:160-164 | The integral loop returns the decimal value of the maximal digit run and the position after it. |
| IsoParser.ReadFractionDigits | src/cpp/hft_core.hpp:169-174 | The first fraction loop reads the digit run after the point, cut at six digits, and returns its value and how many digits it read. |
| IsoParser.ParseFraction | src/cpp/hft_core.hpp:166-180 | The fraction loops read at most six digits and pad with zeros to micro-units. |
| IsoParser.PadFraction | src/cpp/hft_core.hpp:175-179 | The padding loop multiplies by 10 once per missing digit. |
| IsoParser.ParseAmount | src/cpp/hft_core.hpp:153-182 | The pointer walk computes `sign * (integral * 10^6 + fraction)`, as the functional reading of the text defines it. |
| IsoParser.AmountFifteenHundred | src/cpp/tests/cpp/test_iso_parser.cpp:55 | "1500.00" reads as 1 500 000 000 micro-units. |
| IsoParser.OneCent | src/cpp/tests/cpp/test_iso_parser.cpp:275 | "0.01" reads as 10 000. |
| IsoParser.OneHalf | src/cpp/hft_core.hpp:175 | "0.5" is right-padded to 500 000. |
| IsoParser.BareZero | src/cpp/tests/cpp/test_iso_parser.cpp:158-171 | "0" reads as 0. |
| IsoParser.AmountNegative | src/cpp/tests/cpp/test_iso_parser.cpp:174-187 | "-500.00" reads as −500 000 000. |
| IsoParser.NegatedAmount | src/cpp/hft_core.hpp:158-182 | A leading "-" negates the value of the rest of the text. |
| IsoParser.AmountFitsInt64 | src/cpp/hft_core.hpp:153-163 | With at most 12 integral digits, the amount fits the signed 64-bit field. |
| IsoParser.NegativeTextNeverPositive | src/cpp/hft_core.hpp:158-184 | A text starting with "-" never yields a positive amount, so it is always rejected. |
| IsoParser.Parse | src/cpp/hft_core.hpp:96-188 | Decoding succeeds exactly when the reference (`UETR`, else `EndToEndId`), both names and `InstdAmt` are present, the currency is allow-listed and the amount text is non-empty and reads as > 0. An empty document, a missing container, a missing `PmtId` or a missing reference each reject. A decoded record is well formed, and every field comes from its element: the reference cut to 36 characters, the names cut to 63, the currency and the amount read from `InstdAmt`. |
| IsoParser.EndToEndIdIsTheFallback | src/cpp/hft_core.hpp:118-123 | Without a `UETR`, a decodable message takes its reference from `EndToEndId`, cut to 36 characters. |
| IsoParser.DecodesFIToFIMessage | src/cpp/tests/cpp/test_iso_parser.cpp:59-85 | The pacs.008 test message decodes with reference "TXN-2024-001" from `EndToEndId`, currency USD and 50 000 000 000 micro-units. |
| IsoParser.ParseSampleMessage | src/cpp/hft_core.hpp:101-187 | For a message of the tests' layout, decoding succeeds exactly when the currency is allowed and the amount text is non-empty and positive. It then yields the truncated fields. |
| IsoParser.DecodesSampleMessage | src/cpp/tests/cpp/test_iso_parser.cpp:28-56 | The sample credit transfer decodes to Alice Smith, Bob Jones, EUR, its UETR and 1 500 000 000. |
| IsoParser.RejectsSample | src/cpp/hft_core.hpp:139-184 | A disallowed currency, an empty amount text or a non-positive amount rejects the whole message. |
| IsoParser.RejectsZeroAmount | src/cpp/tests/cpp/test_iso_parser.cpp:158-171 | An amount of "0" is rejected. |
| IsoParser.RejectsNegativeAmount | src/cpp/tests/cpp/test_iso_parser.cpp:174-187 | An amount of "-500.00" is rejected. |
| IsoParser.RejectsUnknownCurrency | src/cpp/tests/cpp/test_iso_parser.cpp:190-203 | The currency "XYZ" is rejected. |
| IsoParser.RejectsMissingCurrency | src/cpp/tests/cpp/test_iso_parser.cpp:206-219 | A missing `Ccy` attribute is rejected. |
| IsoParser.LongNameIsTruncated | src/cpp/tests/cpp/test_iso_parser.cpp:241-258 | An over-long debtor name is cut to exactly 63 characters, not rejected. |
| RiskEngine.KeyBytes | src/cpp/risk_engine.hpp:89 | Each character of the name is hashed as one unsigned byte. |
| RiskEngine.Fnv1aHash | src/cpp/risk_engine.hpp:86-93 | The hashing loop computes 64-bit FNV-1a: the offset basis, then for each byte an xor followed by a multiply modulo 2^64. |
| RiskEngine.Fnv1aTestVectors | src/cpp/risk_engine.hpp:86-93 | The model reproduces the published FNV-1a vectors for "", "a" and "foobar". |
| RiskEngine.ShardIndex | src/cpp/risk_engine.hpp:97-99 | The shard is `hash & 1023`: below 1024, equal to hash mod 1024, and a function of the key bytes only. |
| RiskEngine.NewEngine | src/cpp/risk_engine.hpp:64-72 | The constructor gives empty shards and both rule slots at {0.6, 0.25, 5, 9000 units, 0.05}, with slot 0 active. |
| RiskEngine.ReloadRules | src/cpp/risk_engine.hpp:74-78 | Reload writes {0.8, 0.1, 3, 8000 units, 0.05} into the other slot and makes it active. The previously active slot and every shard are untouched, and the path is ignored. |
| RiskEngine.ReloadTwice | src/cpp/risk_engine.hpp:74-78 | Two reloads leave the reload coefficients in both slots and the original index active. |
| RiskEngine.VelocityScore | src/cpp/risk_engine.hpp:141 | The velocity feature is in [0,1]. It is 1 from twice the threshold on, and below that it is `v / (2 * threshold)`. |
| RiskEngine.VelocityScoreMonotone | src/cpp/risk_engine.hpp:141 | More evaluations never lower the velocity feature. |
| RiskEngine.StructuringScore | src/cpp/risk_engine.hpp:142-150 | The structuring feature is 1 exactly when threshold ≤ amount < 10 000·10^6 micros, and 0 otherwise. |
| RiskEngine.Score | src/cpp/risk_engine.hpp:152-158 | The score is the weighted sum capped at 1 from above only, and it is blocked exactly when the capped score exceeds 0.8. It is non-negative for non-negative weights. |
| RiskEngine.NextVelocity | src/cpp/risk_engine.hpp:126-136 | After a gap of more than 1 s (unsigned 64-bit difference), velocity restarts at 1. Otherwise it grows by one, so it is always ≥ 1. |
| RiskEngine.ColdFetch | src/cpp/risk_engine.hpp:27-29 | The cold-tier fetch yields the zero state. |
| RiskEngine.Store | src/cpp/risk_engine.hpp:111-134 | Recording an entity's state touches only its own shard. That key maps to the new state, the shard's keys grow by at most that key, and every other key and shard is unchanged. |
| RiskEngine.Evaluate | src/cpp/risk_engine.hpp:95-159 | An absent key is created from the cold fetch, and the key ends with last-seen = now, the next velocity and its structuring score unchanged. The result is the score under the rules active at entry. Rules, every other shard and every other key are unchanged, and the shard's key set grows by exactly the key. |
| RiskEngine.ThreePaymentsWithinASecond | src/cpp/risk_engine.hpp:95-159 | Three 9 500.00 payments within a second score 0.36, 0.42 and 0.48 under the initial rules, and none is blocked. |
| Worker.TruncDiv | src/cpp/main.cpp:102 | The C++ `/` truncates toward zero: \|q\| = \|a\| / d, and q has the sign of a (or is 0). |
| Worker.TruncRem | src/cpp/main.cpp:102 | The C++ `/` and `%` satisfy a = q·d + r with \|r\| < d, and r takes the sign of the dividend, as C++ truncation gives and floor division does not. |
| Worker.FormatInt | src/cpp/main.cpp:101-102 | `%lld` of a non-negative number prints digits whose value is the number, with no leading zero. A negative number prints "-" followed by such digits for its magnitude. |
| Worker.FormatAmountRoundTrip | src/cpp/main.cpp:99-103 | For a positive amount, the forwarded "%lld.%06lld" text reads back through the decoder's amount routine as exactly that amount. |
| Worker.DecimalTextReads | src/cpp/hft_core.hpp:153-182 | Digits, ".", and six digits read as whole·10^6 + fraction. |
| Worker.PayloadFits | src/cpp/main.cpp:99-105 | For every decoded payment whose amount fits the signed 64-bit field, the message length is in (0, 512), so the guard never discards it. |
| Worker.ProcessItem | src/cpp/main.cpp:79-111 | The transaction counter grows by exactly one, and the block counter by one iff the result is blocked. A message is offered only when score > 0.5 and 0 < len < 512. It is appended to the outbound queue if there is room; otherwise the drop counter grows by one and the queue is unchanged. The scoring state is the one `evaluate` produces. |
| Worker.ProcessAll | src/cpp/main.cpp:77-112 | Applying the worker step to a list of items counts each item once. Blocks and drops grow by at most the number of items. |
| Worker.Drain | src/cpp/main.cpp:77-112 | Draining empties the inbound buffer and counts every item exactly once. The final worker state is the worker step applied to the buffer's items in FIFO order, the i-th at clock[i]. |
| Worker.ParseLines | src/cpp/main.cpp:136-138 | Each line gets the decoder's verdict, and every accepted record is well formed. |
| Worker.Replay | src/cpp/main.cpp:135-143 | Replay enqueues no more payments than there are lines, and each one is well formed. |
| Worker.ReplayAppend | src/cpp/main.cpp:135-143 | Replaying two files in sequence enqueues the first file's payments, then the second's. |
| Worker.ReplaySound | src/cpp/main.cpp:136-142 | Every enqueued payment is the decoding of some line. |
| Worker.ReplayComplete | src/cpp/main.cpp:136-142 | Every line that decodes contributes its payment. |
| Worker.ReplayPrefix | src/cpp/main.cpp:136 | Stopping early at the shutdown flag enqueues a prefix of the full replay. |
| Worker.ReplayEnqueuesInOrder | src/cpp/main.cpp:138-141 | With room in the inbound buffer, the decoded payments end up queued behind what was already waiting, in file order. |
| DigitalAnalyst.InitWeights | src/python/aegis/digital_analyst.py:17-34 | A non-empty loaded weights object is used as is. A missing file or an empty object falls back to the default weights. |
| DigitalAnalyst.FallbackValues | src/python/aegis/digital_analyst.py:26-34 | The fallback weights are velocity 0.8, structuring 0.2, threshold 8, structuring threshold 9500 and baseline 0.1. |
| DigitalAnalyst.RecentCount | src/python/aegis/digital_analyst.py:58-63 | The recent count never exceeds the history length. |
| DigitalAnalyst.RecentCountIsCardinality | src/python/aegis/digital_analyst.py:58-63 | The count is exactly the number of record entries with now − timestamp < 3600, where a missing timestamp counts as 0 and non-records are ignored. |
| DigitalAnalyst.VelocityScore | src/python/aegis/digital_analyst.py:45-69 | An empty history gives 0. A zero threshold raises exactly on a non-empty history. Otherwise the score is ≤ 1. |
| DigitalAnalyst.VelocityScoreValue | src/python/aegis/digital_analyst.py:64-69 | On a non-empty history with a non-zero threshold, the score is count / (2·threshold) while that ratio is below 1, and exactly 1 from there on. It is never negative for a positive threshold. |
| DigitalAnalyst.StructuringScore | src/python/aegis/digital_analyst.py:71-79 | The structuring score is 1 exactly when threshold ≤ amount < 10000, and 0 otherwise. |
| DigitalAnalyst.LastAmount | src/python/aegis/digital_analyst.py:91-93 | The scored amount is the last entry's amount, or 0 if it is missing or the entry is not a record. |
| DigitalAnalyst.ReasonFor | src/python/aegis/digital_analyst.py:114-123 | RC_CLEAR iff total ≤ 0.5. Above that: VELOCITY iff the velocity contribution is strictly larger, otherwise STRUCTURING iff structuring > 0, otherwise BASELINE. |
| DigitalAnalyst.Combine | src/python/aegis/digital_analyst.py:95-129 | From the velocity feature and the amount: the velocity contribution is feature × velocity_weight (0.6 when unset), and the structuring contribution is the structuring score × structuring_weight (0.25). The baseline is baseline_risk (0.05). The score is min(total, 1) ≤ 1, the reason code follows the contributions, and the result is clear iff score ≤ 0.5. |
| DigitalAnalyst.PredictRisk | src/python/aegis/digital_analyst.py:81-129 | An empty history returns `baseline_risk`, raising KeyError if it is unset. A non-empty history raises exactly on a zero velocity threshold. Otherwise the prediction is scored from that history's velocity feature and its last entry's amount, as `Combine` states. |
| DigitalAnalyst.SmurfingIsFlagged | tests/python/test_digital_analyst.py:257-304 | Under the fallback weights, 16 or more transactions within the hour score above 0.8 with RC_VELOCITY_EXCEEDED, whatever the amounts. |
| DigitalAnalyst.SingleSmallTransactionIsClear | tests/python/test_digital_analyst.py:172-180 | One recent small transaction scores 0.15 with RC_CLEAR. |
| AiBridge.AppendBounded | src/python/aegis/ai_bridge.py:77-79 | The history grows by one up to 20 entries and then stays at 20. The new entry is last, and the result is the newest suffix of old + [new]. |
| AiBridge.Window | src/python/aegis/ai_bridge.py:77-79 | A window fed one entry at a time never exceeds 20 entries. |
| AiBridge.WindowIsLatest | src/python/aegis/ai_bridge.py:77-79 | The window always holds the most recent min(n, 20) entries, in arrival order. |
| AiBridge.Mask | src/python/aegis/ai_bridge.py:93 | Names longer than 4 characters become their first two characters plus "****". Other names become "****". |
| AiBridge.MaskRevealsOnlyPrefix | src/python/aegis/ai_bridge.py:93 | Names that agree on length-above-4 and on the first two characters mask identically. |
| AiBridge.StatusFor | src/python/aegis/ai_bridge.py:92 | The status is HIGH_RISK iff score > 0.8, else WARNING. |
| AiBridge.ZkpReasonFor | src/python/aegis/ai_bridge.py:90-126 | A proof is triggered iff score > 0.5 and (score > 0.8 or amount > 50000). The reason is high_risk iff score > 0.8, and high_value otherwise. |
| AiBridge.Record | src/python/aegis/ai_bridge.py:65-79 | The transaction counter grows by one. The debtor's window gets the new entry, and every other debtor's history is unchanged. |
| AiBridge.Decide | src/python/aegis/ai_bridge.py:81-136 | The score is the analyst's, never its no-data branch. An audit entry exists iff score > 0.5, with the status, masked name, request id, reason code and the score itself. It blocks iff score > 0.8. The proof job follows the trigger predicate and carries the debtor, the analyst's reason code and the score. The audit entry is stamped with the bridge's clock reading, while the analyst scores at its own reading. |
| AiBridge.Process | src/python/aegis/ai_bridge.py:63-141 | A missing debtor is "UNKNOWN", a missing id "" and a missing amount 0. The state is updated even when the analyst raises, and the decision is taken on the updated window. The history entry carries the bridge's reading `ts`; the analyst counts recent entries at its own later reading. |
| AiBridge.AnalystClockDecidesRecency | src/python/aegis/digital_analyst.py:53-63 | An entry 3 599.5 s old at the bridge's reading is recent, but one second later, at the analyst's reading, it is not. |
| AiBridge.HighValueNeedsAlert | src/python/aegis/ai_bridge.py:90-126 | A request scored ≤ 0.5 gets no audit entry, no block and no proof, whatever its amount. |
| AiBridge.BurstIsBlocked | src/python/aegis/ai_bridge.py:82-136 | Under the fallback weights, a window with 16 or more recent transactions is blocked and triggers a high-risk proof. |
| AuditLedger.ChainTip | src/python/aegis/blockchain_audit.py:41-46 | The tip of an empty table is height 0 with 64 zeros as its hash. Otherwise its height and hash are the last row's. On an ascending table that row has the highest height. Its hash is the link the next row needs. |
| AuditLedger.AppendEntry | src/python/aegis/blockchain_audit.py:53-83 | The new row has height tip+1, links to the tip's hash, is sealed with H(prev, now, payload) and carries the payload's data hash. Earlier rows are kept, and the block hash is returned. |
| AuditLedger.AppendPreservesIntegrity | src/python/aegis/blockchain_audit.py:53-107 | Appending to an intact, ascending table keeps it intact and ascending. |
| AuditLedger.BuiltHeights | src/python/aegis/blockchain_audit.py:63-64 | A table written only by appends has heights exactly 1..n. |
| AuditLedger.BuiltChainIsIntact | src/python/aegis/blockchain_audit.py:53-107 | A table written only by appends verifies, with ascending heights 1..n. |
| AuditLedger.ChainOkIffLinked | src/python/aegis/blockchain_audit.py:85-107 | The walk from genesis accepts exactly the tables where every row links to its predecessor and is sealed. |
| AuditLedger.VerifyIntegrity | src/python/aegis/blockchain_audit.py:85-107 | `verify_integrity` returns true exactly on intact tables, including the empty one. |
| AuditLedger.TamperingIsDetected | src/python/aegis/blockchain_audit.py:98-102 | Editing a row's link, timestamp or payload without resealing it makes verification fail. The one exception is an edit that keeps the link and whose contents hash to the stored seal. |
| RulesEngine.GetPolicy | src/python/aegis/rules_engine.py:25-27 | A configured jurisdiction gets its own policy, and any other gets the UK policy. |
| RulesEngine.GamblingAdjustment | src/python/aegis/rules_engine.py:37-41 | The gambling surcharge is 3.0 for HIGH and 1.5 for MEDIUM sensitivity. It is never negative, and it is zero exactly for LOW. |
| RulesEngine.EvaluateRisk | src/python/aegis/rules_engine.py:29-43 | The final score is ≥ the base score and equals it without "Gambling". With "Gambling" it adds the policy's surcharge. It is flagged iff final > threshold. |
| RulesEngine.FlagIsMonotone | src/python/aegis/rules_engine.py:29-43 | A higher base score never lowers the final score or clears a flag. |
| RulesEngine.GamblingExamples | src/python/aegis/rules_engine.py:45-55 | A gambling payment of 5.0 gives (5.0, false) in the US, (8.0, true) in the UK, (6.5, true) in the EU, and the UK outcome anywhere else. |
| LicenseManager.TierDefaults | src/python/aegis/license_manager.py:34-56 | PRIME and SOVEREIGN get their own capabilities, and any other tier gets CORE's. Every tier carries `max_tps`. |
| LicenseManager.Split | src/python/aegis/license_manager.py:83 | `split(".")` gives dot-free pieces that, rejoined with ".", give back the key. |
| LicenseManager.SplitTwo | src/python/aegis/license_manager.py:83-86 | A key with exactly one dot splits into its two sides. |
| LicenseManager.LicensePayload | src/python/aegis/license_manager.py:63-68 | The signed payload holds exactly client, tier, exp and that tier's default capabilities. |
| LicenseManager.KeyLawsSatisfiable | src/python/aegis/license_manager.py:70-76 | Some codec obeys the encoding laws for any payload, so the lemmas that assume them are not vacuous. |
| LicenseManager.GenerateLicenseKey | src/python/aegis/license_manager.py:58-88 | The key is the encoded payload, ".", and its HMAC. When neither side contains a dot, the validator's split gives back exactly those two sides, and the signature it checks matches. |
| LicenseManager.Accept | src/python/aegis/license_manager.py:97-104 | A decoded payload is accepted iff it is an object, its exp is a number ≥ now, and it has tier, capabilities (with max_tps) and client. Acceptance installs its tier and capabilities. |
| LicenseManager.LoadLicense | src/python/aegis/license_manager.py:78-110 | Loading succeeds exactly for a non-empty key that splits into two parts with a matching signature and whose first part decodes to JSON the final checks accept. The state installed is the accepted one. Any failure resets to CORE, whatever the prior state. |
| LicenseManager.GeneratedKeyLoads | src/python/aegis/license_manager.py:58-104 | When the codec obeys the encoding laws on the key's payload, a generated key loads before its expiry and grants its tier with that tier's defaults. |
| LicenseManager.ExpiredKeyIsRefused | src/python/aegis/license_manager.py:97-110 | Under the same laws, a generated key past its expiry is refused and resets to CORE. |
| LicenseManager.LastDotUnique | src/python/aegis/license_manager.py:83-86 | When the part after a dot has no dot, the two sides of the key are determined by its text. |
| LicenseManager.TamperedKeyIsRefused | src/python/aegis/license_manager.py:83-91 | A key whose payload part was replaced but not re-signed is refused whenever the HMAC tells the two payload parts apart. |

## Left out

- AuditLedger.ChainTip: the tip is the last row of the table, not the result of sorting by height. Only AppendEntry writes the table, and it keeps the heights ascending (AppendPreservesIntegrity). On such a table the last row is the highest.
- Threads, atomics and memory ordering are not modelled. This covers the ring buffer's acquire/release pairs (src/cpp/hft_core.hpp:48-49,57-73), the per-shard mutexes, cache-line alignment and `force_quit` polling. Everything is one sequential step, so the SPSC concurrency contract is not stated.
- XML loading and well-formedness checking are not modelled. The decoder takes a parsed tree, and a line the loader rejects is `None`.
- Floating point is modelled as `real`. The C++ `float` score arithmetic, the float velocity counter (which stops growing at 2^24) and Python's float/`Decimal` mixing are not modelled.
- RiskEngine.NewEngine: the structuring threshold is exact integer micro-units (9 000·10^6). The source computes `(int64_t)(9000.0f * 1000000.0f)`, which single precision rounds to 8 999 999 488, so amounts in the 512 micro-units just below 9 000.00 are treated differently.
- RiskEngine.ReloadRules: the reloaded structuring threshold is the exact integer 8 000·10^6 micro-units. The source's single-precision product is not modelled.
- DigitalAnalyst.PredictRisk, DigitalAnalyst.Combine, AiBridge.Decide: Python's `round(..., 4)` of the reported score and `round(..., 3)` of the contributions are not applied. The score stated is the unrounded min(total, 1). The bridge compares the rounded score with 0.5 and 0.8, while the reason code uses the unrounded total. So near a threshold the program can differ from the model. For example, a total of 0.80004 is reported as 0.8 and not blocked. A total of 0.50003 is reported as 0.5 with a non-clear reason and no audit entry.
- DigitalAnalyst.InitWeights: the weights file is modelled as an object of numbers or nothing. A file that holds another JSON value, non-numeric weights, non-numeric amounts (which make `Decimal` raise) and timestamps of other types are not modelled.
- IsoParser.AmountFitsInt64: the parser has no overflow guard. The model reads amounts with unbounded integers, and this lemma states that up to 12 integral digits cannot overflow the 64-bit field. Longer texts overflow `int64_t` in the source, which is undefined behaviour; here they are read exactly.
- Worker.FormatAmountRoundTrip is stated for positive amounts, the only ones the decoder produces. For amounts in (−10^6, 0) the C++ format drops the sign.
- The per-shard eviction branch (src/cpp/risk_engine.hpp:114-117) is an empty placeholder and `MAX_ENTRIES_PER_SHARD` is never enforced, so no eviction is modelled.
- Text encodings are not modelled. On the C++ side every character of a `string` stands for one byte, so text such as "Müller" must be given as its UTF-8 bytes for the truncation points, the message length and the shard to match the program. A character of 256 or above has no counterpart there: `RiskEngine.KeyBytes` reduces it modulo 256.
- Clocks (`steady_clock`, `time.time()`) are parameters. The model does not relate the bridge's and the analyst's readings, not even by order.
- SHA-256, HMAC, base64url and JSON are uninterpreted functions. Their laws are preconditions on the inputs at hand. Loading the master license key at import time is not modelled.
- IsoParser.Parse returns nothing on a rejected message. The source may already have written the reference, the names or the currency into the caller's record before it rejects; the worker never reads such a record.
- Network and broker I/O are not modelled: the TCP client, the ZeroMQ sender thread and socket loop, Kafka ingress, the metrics server and counters, telemetry spans, logging and `print`.
- The zero-knowledge-proof layer is not modelled. The bridge returns the proof job it would submit to the executor instead of running it.
- The audit logger, the consortium ledger and the database provider are not modelled. The audit ledger's SQL table is its rows in ascending height order.
- Replay's retry-until-pushed loop is modelled as the pushes succeeding. The lemma about it assumes the inbound buffer has room, because waiting on a consumer thread is concurrency.
- The ring-buffer test that stores `1000.50` in an integer field is not used as a source of properties.

=== FILE: ai_bridge.dfy ===
/** The decision logic of the Python AI bridge (`process_risk_analysis`):
    a bounded per-debtor history, the analyst's verdict on it, and the audit,
    block and zero-knowledge-proof decisions taken from the score. Sockets,
    metrics, the audit logger and the proof executor are left out; what the
    bridge would hand to them is returned instead. */
module AiBridge {
  import opened Wrappers
  import opened DigitalAnalyst

  /** The most transactions kept per debtor. */
  const HistoryLimit: nat := 20
  const BlockThreshold: real := 0.8
  const HighValueAmount: real := 50000.0

  /** A decoded request: each field may be missing from the JSON object. */
  datatype Request = Request(debtor: Option<string>, uetr: Option<string>, amount: Option<real>)

  datatype Status = Warning | HighRisk

  /** The record given to the audit logger. */
  datatype AuditEntry = AuditEntry(timestamp: real, requestId: string, entityMasked: string,
                                   status: Status, riskScore: real, reasonCode: ReasonCode)

  datatype ZkpReason = HighRiskProof | HighValueProof

  /** A proof job handed to the background executor. */
  datatype ZkpJob = ZkpJob(debtor: string, reasonCode: ReasonCode, score: real, reason: ZkpReason)

  /** What one request leads to, besides the state change. */
  datatype Decision = Decision(score: real, audit: Option<AuditEntry>, blocked: bool, zkp: Option<ZkpJob>)

  /** The bridge's process-wide state: the per-debtor histories and the
      transaction counter. */
  datatype BridgeState = BridgeState(histories: map<string, seq<HistoryItem>>, transactions: nat)
  {
    ghost predicate Valid() {
      forall d :: d in histories ==> |histories[d]| <= HistoryLimit
    }
  }

  // ---------------------------------------------------------------------
  // History window
  // ---------------------------------------------------------------------

  /** Append the new entry, then drop the oldest when over the limit. */
  function AppendBounded(h: seq<HistoryItem>, item: HistoryItem): (r: seq<HistoryItem>)
    requires |h| <= HistoryLimit
    ensures |r| == if |h| < HistoryLimit then |h| + 1 else HistoryLimit
    ensures r[|r| - 1] == item
    ensures r == (h + [item])[|h| + 1 - |r|..]
  {
    var appended := h + [item];
    if |appended| > HistoryLimit then appended[1..] else appended
  }

  /** The window left by feeding `items` one by one into an empty history. */
  function Window(items: seq<HistoryItem>): (h: seq<HistoryItem>)
    ensures |h| <= HistoryLimit
  {
    if items == [] then [] else AppendBounded(Window(items[..|items| - 1]), items[|items| - 1])
  }

  /** The window is always the most recent `min(n, 20)` items, in arrival
      order. */
  lemma {:induction false} WindowIsLatest(items: seq<HistoryItem>)
    ensures var keep := if |items| < HistoryLimit then |items| else HistoryLimit;
      Window(items) == items[|items| - keep..]
    decreases |items|
  {
    if items != [] {
      var n := |items|;
      WindowIsLatest(items[..n - 1]);
      AppendToSuffix(items, if n - 1 < HistoryLimit then n - 1 else HistoryLimit);
    }
  }

  /** Appending the last item to the window of the ones before it. */
  lemma AppendToSuffix(items: seq<HistoryItem>, keep: nat)
    requires 0 < |items| && keep <= HistoryLimit && keep <= |items| - 1
    requires keep == |items| - 1 || keep == HistoryLimit
    ensures var k := if keep < HistoryLimit then keep + 1 else HistoryLimit;
      AppendBounded(items[..|items| - 1][|items| - 1 - keep..], items[|items| - 1]) == items[|items| - k..]
  {
    var n := |items|;
    var h := items[..n - 1][n - 1 - keep..];
    assert h + [items[n - 1]] == items[n - 1 - keep..];
  }

  // ---------------------------------------------------------------------
  // Masking and the decisions
  // ---------------------------------------------------------------------

  /** The masked entity name: the first two characters and four stars for a
      name longer than four characters, else four stars alone. */
  function Mask(debtor: string): (m: string)
    ensures |debtor| > 4 ==> |m| == 6 && m[..2] == debtor[..2]
    ensures |debtor| <= 4 ==> |m| == 4
    ensures m[|m| - 4..] == "****"
  {
    if |debtor| > 4 then debtor[..2] + "****" else "****"
  }

  /** Masking reveals nothing beyond the first two characters and whether
      the name is longer than four: two such names mask alike. */
  lemma MaskRevealsOnlyPrefix(a: string, b: string)
    requires (|a| > 4) == (|b| > 4)
    requires |a| > 4 ==> a[..2] == b[..2]
    ensures Mask(a) == Mask(b)
  {
  }

  function StatusFor(score: real): (s: Status)
    ensures s == HighRisk <==> score > BlockThreshold
  {
    if score > BlockThreshold then HighRisk else Warning
  }

  /** The proof trigger: only for audited transactions, and then for a high
      score or a high amount, naming the risk reason first. */
  function ZkpReasonFor(score: real, amount: real): (r: Option<ZkpReason>)
    ensures r.Some? <==> score > AlertThreshold && (score > BlockThreshold || amount > HighValueAmount)
    ensures r == Some(HighRiskProof) <==> score > BlockThreshold
    ensures r == Some(HighValueProof) <==>
      AlertThreshold < score <= BlockThreshold && amount > HighValueAmount
  {
    if score > AlertThreshold then
      if score > BlockThreshold then Some(HighRiskProof)
      else if amount > HighValueAmount then Some(HighValueProof)
      else None
    else None
  }

  // ---------------------------------------------------------------------
  // One request
  // ---------------------------------------------------------------------

  /** Step 1 of a request: count it and record it in the debtor's window. */
  function Record(st: BridgeState, debtor: string, amount: real, now: real): (st': BridgeState)
    requires st.Valid()
    ensures st'.Valid()
    ensures st'.transactions == st.transactions + 1
    ensures debtor in st'.histories
    ensures st'.histories[debtor]
      == AppendBounded(if debtor in st.histories then st.histories[debtor] else [],
                       Txn(Some(now), Some(amount)))
    ensures st'.histories.Keys == st.histories.Keys + {debtor}
    ensures forall d :: d in st.histories && d != debtor ==> st'.histories[d] == st.histories[d]
  {
    var previous := if debtor in st.histories then st.histories[debtor] else [];
    BridgeState(st.histories[debtor := AppendBounded(previous, Txn(Some(now), Some(amount)))],
                st.transactions + 1)
  }

  /** Steps 2 to 4: the analyst's verdict on the updated window and the
      audit, block and proof decisions drawn from its score. The bridge
      stamps the audit entry with its own reading `now`; the analyst counts
      recent entries against the later reading `analystNow`. */
  function Decide(w: Weights, history: seq<HistoryItem>, debtor: string, uetr: string,
                  amount: real, now: real, analystNow: real): (r: Result<Decision, AnalystError>)
    requires history != []
    ensures r.Err? <==> Get(w, "velocity_threshold_1h", 5.0) == 0.0
    ensures r.Ok? ==>
      var dec := r.value;
      var p := PredictRisk(w, history, analystNow);
      && p.Ok? && p.value.Scored? && dec.score == p.value.score
      && (dec.audit.Some? <==> dec.score > AlertThreshold)
      && (dec.audit.Some? ==>
            && dec.audit.value.timestamp == now
            && dec.audit.value.status == StatusFor(dec.score)
            && dec.audit.value.riskScore == dec.score
            && dec.audit.value.entityMasked == Mask(debtor)
            && dec.audit.value.requestId == uetr
            && dec.audit.value.reasonCode == p.value.reasonCode)
      && (dec.blocked <==> dec.score > BlockThreshold)
      && (dec.zkp.Some? <==> ZkpReasonFor(dec.score, amount).Some?)
      && (dec.zkp.Some? ==> dec.zkp.value.reason == ZkpReasonFor(dec.score, amount).value
                            && dec.zkp.value.debtor == debtor
                            && dec.zkp.value.reasonCode == p.value.reasonCode
                            && dec.zkp.value.score == dec.score)
  {
    match PredictRisk(w, history, analystNow)
    case Err(e) => Err(e)
    case Ok(NoData(_)) => assert false; Err(DivisionByZero)
    case Ok(Scored(score, rc, _, _, _)) =>
      var audit :=
        if score > AlertThreshold
        then Some(AuditEntry(now, uetr, Mask(debtor), StatusFor(score), score, rc))
        else None;
      var zkp :=
        match ZkpReasonFor(score, amount)
        case None => None
        case Some(reason) => Some(ZkpJob(debtor, rc, score, reason));
      Ok(Decision(score, audit, score > BlockThreshold, zkp))
  }

  /** `process_risk_analysis` with the analyst's weights `w`, where `now` is
      the bridge's clock reading and `analystNow` the analyst's own one:
      the new state (recorded before the analyst runs, so also when it
      raises) and the decision, or the analyst's exception. A missing debtor
      is "UNKNOWN", a missing request id empty and a missing amount 0. */
  function Process(w: Weights, st: BridgeState, req: Request, now: real, analystNow: real)
    : (res: (BridgeState, Result<Decision, AnalystError>))
    requires st.Valid()
    ensures res.0.Valid()
    ensures res.0.transactions == st.transactions + 1
    ensures var debtor := req.debtor.GetOr("UNKNOWN");
      && debtor in res.0.histories
      && res.0.histories[debtor]
         == AppendBounded(if debtor in st.histories then st.histories[debtor] else [],
                          Txn(Some(now), Some(req.amount.GetOr(0.0))))
      && res.0.histories.Keys == st.histories.Keys + {debtor}
      && (forall d :: d in st.histories && d != debtor ==> res.0.histories[d] == st.histories[d])
    ensures res.1 == Decide(w, res.0.histories[req.debtor.GetOr("UNKNOWN")], req.debtor.GetOr("UNKNOWN"),
                            req.uetr.GetOr(""), req.amount.GetOr(0.0), now, analystNow)
  {
    var debtor := req.debtor.GetOr("UNKNOWN");
    var amount := req.amount.GetOr(0.0);
    var st' := Record(st, debtor, amount, now);
    (st', Decide(w, st'.histories[debtor], debtor, req.uetr.GetOr(""), amount, now, analystNow))
  }

  /** The two clock readings matter: an entry an hour old by the bridge's
      clock still counts as recent, but no longer does by a later reading of
      the analyst's clock one second on. */
  lemma AnalystClockDecidesRecency()
    ensures var h := [Txn(Some(0.0), Some(10.0)), Txn(Some(3599.5), Some(10.0))];
      RecentCount(h, 3599.5) == 2 && RecentCount(h, 3600.5) == 1
  {
  }

  /** A high amount alone never leads to a proof: an unaudited request
      (score at most 0.5) gets none, whatever its amount. */
  lemma HighValueNeedsAlert(w: Weights, st: BridgeState, req: Request, now: real, analystNow: real)
    requires st.Valid()
    requires var res := Process(w, st, req, now, analystNow); res.1.Ok? && res.1.value.score <= AlertThreshold
    ensures var dec := Process(w, st, req, now, analystNow).1.value; dec.zkp.None? && dec.audit.None? && !dec.blocked
  {
  }

  /** Under the fallback weights, a debtor whose window holds sixteen or
      more transactions from the last hour is blocked and a high-risk proof
      is requested, whatever the amount. */
  lemma BurstIsBlocked(st: BridgeState, req: Request, now: real, analystNow: real)
    requires st.Valid()
    requires var debtor := req.debtor.GetOr("UNKNOWN");
      RecentCount(Process(FallbackWeights, st, req, now, analystNow).0.histories[debtor], analystNow) >= 16
    ensures var res := Process(FallbackWeights, st, req, now, analystNow);
      && res.1.Ok? && res.1.value.blocked
      && res.1.value.zkp.Some? && res.1.value.zkp.value.reason == HighRiskProof
  {
    var res := Process(FallbackWeights, st, req, now, analystNow);
    SmurfingIsFlagged(res.0.histories[req.debtor.GetOr("UNKNOWN")], analystNow);
  }
}

=== FILE: audit_ledger.dfy ===
/** The hash-chained audit ledger of the Python sidecar (`DatabaseLedger`).
    The SQL table is the sequence of its rows in ascending height order; the
    clock is a parameter, and SHA-256 with the `prev|timestamp|payload`
    framing is an uninterpreted `Hasher` whose injectivity, where a property
    needs it, is stated as a precondition. */
module AuditLedger {

  /** One row of the `audit_chain` table. */
  datatype Row = Row(height: int, timestamp: real, prevHash: string, dataHash: string,
                     blockHash: string, payload: string, nodeId: string)

  /** The hashes the ledger uses: the linkage hash of a block and the hash of
      a payload alone. */
  datatype Hasher = Hasher(block: (string, real, string) -> string, data: string -> string)

  /** The link of the first block: 64 zero digits. */
  const GenesisHash: string := "0000000000000000000000000000000000000000000000000000000000000000"

  /** Rows read in height order: heights strictly increase. */
  ghost predicate Ascending(rows: seq<Row>) {
    forall i, j :: 0 <= i < j < |rows| ==> rows[i].height < rows[j].height
  }

  /** The link a row at position `i` must carry. */
  function ExpectedPrev(rows: seq<Row>, i: nat): string
    requires i <= |rows|
  {
    if i == 0 then GenesisHash else rows[i - 1].blockHash
  }

  /** A row's stored hash matches the one recomputed from its contents. */
  predicate Sealed(h: Hasher, row: Row) {
    h.block(row.prevHash, row.timestamp, row.payload) == row.blockHash
  }

  /** The integrity property, position by position: every row links to its
      predecessor (the first to the genesis hash) and is sealed. */
  ghost predicate Linked(h: Hasher, rows: seq<Row>) {
    forall i :: 0 <= i < |rows| ==> rows[i].prevHash == ExpectedPrev(rows, i) && Sealed(h, rows[i])
  }

  // ---------------------------------------------------------------------
  // The tip and appending
  // ---------------------------------------------------------------------

  datatype Tip = Tip(height: int, blockHash: string)

  /** `_get_chain_tip`: the highest row, or height 0 with the genesis hash
      on an empty table. */
  function ChainTip(rows: seq<Row>): (t: Tip)
    ensures rows == [] ==> t == Tip(0, GenesisHash)
    ensures rows != [] ==> t.blockHash == ExpectedPrev(rows, |rows|)
    ensures rows != [] ==> t.height == rows[|rows| - 1].height
    ensures Ascending(rows) ==> forall i :: 0 <= i < |rows| ==> rows[i].height <= t.height
  {
    if rows == [] then Tip(0, GenesisHash)
    else Tip(rows[|rows| - 1].height, rows[|rows| - 1].blockHash)
  }

  /** `append_entry` at time `now` with the serialised payload: the new row
      extends the tip, and its hash is returned. */
  function AppendEntry(h: Hasher, rows: seq<Row>, payload: string, nodeId: string, now: real)
    : (res: (seq<Row>, string))
    ensures |res.0| == |rows| + 1 && res.0[..|rows|] == rows
    ensures var row := res.0[|rows|];
      && row.height == ChainTip(rows).height + 1
      && row.prevHash == ChainTip(rows).blockHash
      && row.timestamp == now && row.payload == payload && row.nodeId == nodeId
      && row.dataHash == h.data(payload)
      && Sealed(h, row)
      && res.1 == row.blockHash
  {
    var tip := ChainTip(rows);
    var row := Row(tip.height + 1, now, tip.blockHash, h.data(payload),
                   h.block(tip.blockHash, now, payload), payload, nodeId);
    (rows + [row], row.blockHash)
  }

  /** Appending keeps the chain intact and the heights ascending. */
  lemma AppendPreservesIntegrity(h: Hasher, rows: seq<Row>, payload: string, nodeId: string, now: real)
    requires Linked(h, rows) && Ascending(rows)
    ensures var rows' := AppendEntry(h, rows, payload, nodeId, now).0;
      Linked(h, rows') && Ascending(rows')
  {
    var tip := ChainTip(rows);
    var row := Row(tip.height + 1, now, tip.blockHash, h.data(payload),
                   h.block(tip.blockHash, now, payload), payload, nodeId);
    assert AppendEntry(h, rows, payload, nodeId, now).0 == rows + [row];
    LinkedSnoc(h, rows, row);
    AscendingSnoc(rows, row);
  }

  lemma LinkedSnoc(h: Hasher, rows: seq<Row>, row: Row)
    requires Linked(h, rows)
    requires row.prevHash == ExpectedPrev(rows, |rows|) && Sealed(h, row)
    ensures Linked(h, rows + [row])
  {
    var rows' := rows + [row];
    forall i | 0 <= i < |rows'|
      ensures rows'[i].prevHash == ExpectedPrev(rows', i) && Sealed(h, rows'[i])
    {
      if i < |rows| {
        assert rows'[i] == rows[i];
        if i > 0 { assert rows'[i - 1] == rows[i - 1]; }
      } else if i > 0 {
        assert rows'[i - 1] == rows[i - 1];
      }
    }
  }

  lemma AscendingSnoc(rows: seq<Row>, row: Row)
    requires Ascending(rows)
    requires forall i :: 0 <= i < |rows| ==> rows[i].height < row.height
    ensures Ascending(rows + [row])
  {
    var rows' := rows + [row];
    forall i, j | 0 <= i < j < |rows'| ensures rows'[i].height < rows'[j].height {
      assert rows'[i] == rows[i];
    }
  }

  /** The table left by appending `entries` (timestamp, payload, node) one
      by one to an empty table. */
  function Build(h: Hasher, entries: seq<(real, string, string)>): (rows: seq<Row>)
    ensures |rows| == |entries|
  {
    if entries == [] then []
    else
      var e := entries[|entries| - 1];
      AppendEntry(h, Build(h, entries[..|entries| - 1]), e.1, e.2, e.0).0
  }

  /** The heights of a table written by appends alone are exactly 1..n. */
  lemma {:induction false} BuiltHeights(h: Hasher, entries: seq<(real, string, string)>)
    ensures var rows := Build(h, entries); forall i :: 0 <= i < |rows| ==> rows[i].height == i + 1
    decreases |entries|
  {
    if entries != [] {
      var front := entries[..|entries| - 1];
      var e := entries[|entries| - 1];
      BuiltHeights(h, front);
      var before := Build(h, front);
      var rows := AppendEntry(h, before, e.1, e.2, e.0).0;
      assert rows == Build(h, entries);
      forall i | 0 <= i < |rows| ensures rows[i].height == i + 1 {
        if i < |before| {
          assert rows[i] == Build(h, front)[i];
        } else if before != [] {
          assert Build(h, front)[|before| - 1].height == |before|;
        }
      }
    }
  }

  /** A table written by appends alone verifies, and its heights are
      exactly 1..n. */
  lemma {:induction false} BuiltChainIsIntact(h: Hasher, entries: seq<(real, string, string)>)
    ensures var rows := Build(h, entries);
      Linked(h, rows) && Ascending(rows) && forall i :: 0 <= i < |rows| ==> rows[i].height == i + 1
    decreases |entries|
  {
    BuiltHeights(h, entries);
    if entries != [] {
      var front := entries[..|entries| - 1];
      var e := entries[|entries| - 1];
      BuiltChainIsIntact(h, front);
      AppendPreservesIntegrity(h, Build(h, front), e.1, e.2, e.0);
    }
  }

  // ---------------------------------------------------------------------
  // Verification
  // ---------------------------------------------------------------------

  /** The walk of `verify_integrity`, starting from the link `expected`. */
  function ChainOk(h: Hasher, rows: seq<Row>, expected: string): bool
  {
    rows == []
    || (rows[0].prevHash == expected && Sealed(h, rows[0])
        && ChainOk(h, rows[1..], rows[0].blockHash))
  }

  /** The walk from genesis accepts exactly the linked tables. */
  lemma {:induction false} ChainOkIffLinked(h: Hasher, rows: seq<Row>)
    ensures ChainOk(h, rows, GenesisHash) <==> Linked(h, rows)
  {
    ChainOkFrom(h, rows, 0);
  }

  lemma {:induction false} ChainOkFrom(h: Hasher, rows: seq<Row>, k: nat)
    requires k <= |rows|
    ensures ChainOk(h, rows[k..], ExpectedPrev(rows, k)) <==>
      forall i :: k <= i < |rows| ==> rows[i].prevHash == ExpectedPrev(rows, i) && Sealed(h, rows[i])
    decreases |rows| - k
  {
    if k < |rows| {
      ChainOkFrom(h, rows, k + 1);
      assert rows[k..][1..] == rows[k + 1..];
    }
  }

  /** `verify_integrity` over the rows in height order. */
  method VerifyIntegrity(h: Hasher, rows: seq<Row>) returns (ok: bool)
    ensures ok == ChainOk(h, rows, GenesisHash)
    ensures ok <==> Linked(h, rows)
  {
    ChainOkIffLinked(h, rows);
    if |rows| == 0 {
      return true;
    }
    var expected := GenesisHash;
    var i := 0;
    while i < |rows|
      invariant 0 <= i <= |rows|
      invariant ChainOk(h, rows, GenesisHash) == ChainOk(h, rows[i..], expected)
    {
      var row := rows[i];
      if row.prevHash != expected {
        return false;
      }
      if h.block(row.prevHash, row.timestamp, row.payload) != row.blockHash {
        return false;
      }
      assert rows[i..][1..] == rows[i + 1..];
      expected := row.blockHash;
      i := i + 1;
    }
    return true;
  }

  /** Editing a row's link, timestamp or payload without resealing it makes
      verification fail, unless the edit keeps the link and the edited
      contents happen to hash to the stored seal. */
  lemma TamperingIsDetected(h: Hasher, rows: seq<Row>, i: nat, prev: string, ts: real, payload: string)
    requires Linked(h, rows)
    requires i < |rows|
    requires prev == rows[i].prevHash ==> h.block(prev, ts, payload) != rows[i].blockHash
    ensures !ChainOk(h, rows[i := rows[i].(prevHash := prev, timestamp := ts, payload := payload)], GenesisHash)
  {
    var tampered := rows[i := rows[i].(prevHash := prev, timestamp := ts, payload := payload)];
    ChainOkIffLinked(h, tampered);
    assert ExpectedPrev(tampered, i) == ExpectedPrev(rows, i);
  }
}

=== FILE: bits.dfy ===
/** Powers of two and the low-bit mask `x & (2^k - 1)` used for the
    ring-buffer indices and the shard selection. */
module Bits {

  function Pow2(k: nat): (r: nat)
    ensures r >= 1
  {
    if k == 0 then 1 else 2 * Pow2(k - 1)
  }

  /** `x & (2^k - 1)`, defined bit by bit: the lowest bit of `x` followed by
      the masked higher bits. */
  function MaskLow(x: nat, k: nat): nat
  {
    if k == 0 then 0 else x % 2 + 2 * MaskLow(x / 2, k - 1)
  }

  /** Masking with `2^k - 1` is reduction modulo `2^k`, which is why the
      source insists that buffer sizes and the shard count are powers of two. */
  lemma {:induction false} MaskLowIsMod(x: nat, k: nat)
    ensures MaskLow(x, k) == x % Pow2(k)
  {
    if k > 0 {
      MaskLowIsMod(x / 2, k - 1);
      var p := Pow2(k - 1);
      // x = 2 * (x / 2) + x % 2 and x / 2 = p * ((x / 2) / p) + (x / 2) % p
      assert x == 2 * p * ((x / 2) / p) + (2 * ((x / 2) % p) + x % 2);
      assert 0 <= 2 * ((x / 2) % p) + x % 2 < 2 * p;
      DivModUnique(x, 2 * p, (x / 2) / p, 2 * ((x / 2) % p) + x % 2);
    }
  }

  /** The quotient/remainder pair of a non-negative division is unique. */
  lemma DivModUnique(x: int, d: int, q: int, r: int)
    requires d > 0 && 0 <= r < d && x == d * q + r
    ensures x % d == r && x / d == q
  {
    var q0, r0 := x / d, x % d;
    var k := q0 - q;
    assert d * k == r - r0 by {
      assert d * q0 + r0 == d * q + r;
      assert d * q0 - d * q == d * k;
    }
    if k >= 1 {
      MulAtLeast(d, k);
    } else if k <= -1 {
      MulAtLeast(d, -k);
    }
  }

  lemma MulAtLeast(d: int, k: int)
    requires d > 0 && k >= 1
    ensures d * k >= d
  {
    assert d * k == d + d * (k - 1);
    assert d * (k - 1) >= 0;
  }
}

=== FILE: decimal.dfy ===
/** Decimal digit strings: the digit accumulation the amount parser performs
    and the `%lld` / `%06lld` renderings the amount serialiser produces. */
module Decimal {

  predicate IsDigit(c: char) { '0' <= c <= '9' }

  predicate AllDigits(s: string) { forall i | 0 <= i < |s| :: IsDigit(s[i]) }

  function DigitValue(c: char): (d: nat)
    requires IsDigit(c)
    ensures d < 10
  {
    c as int - '0' as int
  }

  function DigitChar(d: nat): (c: char)
    requires d < 10
    ensures IsDigit(c) && DigitValue(c) == d
  {
    ('0' as int + d) as char
  }

  function Pow10(k: nat): (r: nat)
    ensures r >= 1
  {
    if k == 0 then 1 else 10 * Pow10(k - 1)
  }

  /** The number a digit string denotes, accumulated left to right as
      `value * 10 + digit`. */
  function Value(s: string): nat
    requires AllDigits(s)
  {
    if s == [] then 0 else Value(s[..|s| - 1]) * 10 + DigitValue(s[|s| - 1])
  }

  lemma ValueSnoc(s: string, c: char)
    requires AllDigits(s) && IsDigit(c)
    ensures AllDigits(s + [c]) && Value(s + [c]) == Value(s) * 10 + DigitValue(c)
  {
    assert (s + [c])[..|s|] == s;
  }

  /** A digit string of length `k` denotes less than `10^k`. */
  lemma {:induction false} ValueBound(s: string)
    requires AllDigits(s)
    ensures Value(s) < Pow10(|s|)
    decreases |s|
  {
    if s != [] {
      ValueBound(s[..|s| - 1]);
    }
  }

  /** Leading zeros do not change the value. */
  lemma {:induction false} ValueLeadingZeros(k: nat, s: string)
    requires AllDigits(s)
    ensures AllDigits(Zeros(k) + s) && Value(Zeros(k) + s) == Value(s)
    decreases |s|
  {
    if s == [] {
      assert Zeros(k) + s == Zeros(k);
      ZerosValue(k);
    } else {
      var init := s[..|s| - 1];
      ValueLeadingZeros(k, init);
      assert Zeros(k) + s == (Zeros(k) + init) + [s[|s| - 1]];
      ValueSnoc(Zeros(k) + init, s[|s| - 1]);
    }
  }

  lemma {:induction false} ZerosValue(k: nat)
    ensures AllDigits(Zeros(k)) && Value(Zeros(k)) == 0
  {
    if k > 0 {
      ZerosValue(k - 1);
      assert Zeros(k) == Zeros(k - 1) + ['0'];
      ValueSnoc(Zeros(k - 1), '0');
    }
  }

  function Zeros(k: nat): (z: string)
    ensures |z| == k && forall i | 0 <= i < k :: z[i] == '0'
  {
    if k == 0 then "" else Zeros(k - 1) + "0"
  }

  /** `%lld` of a non-negative integer: its shortest decimal form. */
  function NatToString(n: nat): (s: string)
    ensures AllDigits(s) && |s| >= 1
    ensures Value(s) == n
    ensures |s| > 1 ==> s[0] != '0'
  {
    if n < 10 then [DigitChar(n)]
    else
      var init := NatToString(n / 10);
      ValueSnoc(init, DigitChar(n % 10));
      init + [DigitChar(n % 10)]
  }

  /** The shortest form of a number below `10^k` has at most `k` digits. */
  lemma {:induction false} NatToStringLength(n: nat, k: nat)
    requires n < Pow10(k) && k >= 1
    ensures |NatToString(n)| <= k
  {
    if n >= 10 {
      NatToStringLength(n / 10, k - 1);
    }
  }

  /** `%06lld` of a number below one million: exactly six digits,
      zero-padded on the left. */
  function SixDigits(n: nat): (s: string)
    requires n < 1000000
    ensures |s| == 6 && AllDigits(s) && Value(s) == n
  {
    assert Pow10(6) == 1000000;
    NatToStringLength(n, 6);
    var t := NatToString(n);
    ValueLeadingZeros(6 - |t|, t);
    Zeros(6 - |t|) + t
  }
}

=== FILE: digital_analyst.dfy ===
/** The Python digital analyst (`DigitalAnalyst`): a velocity feature over a
    one-hour window, a structuring band, a weighted linear score capped at 1,
    and a reason code naming the main driver. The clock is a parameter; the
    weights file is whatever JSON object of numbers it held, or nothing. */
module DigitalAnalyst {
  import opened Wrappers

  /** A weights document: a JSON object of numbers. */
  type Weights = map<string, real>

  /** The weights used when no weights file could be loaded. */
  const FallbackWeights: Weights := map[
    "velocity_weight" := 0.8,
    "amount_weight" := 0.1,
    "structuring_weight" := 0.2,
    "velocity_threshold_1h" := 8.0,
    "structuring_threshold" := 9500.0,
    "baseline_risk" := 0.1]

  const WindowSeconds: real := 3600.0
  const ReportingLimit: real := 10000.0
  const AlertThreshold: real := 0.5

  /** An entry of a transaction history: a record with optional timestamp and
      amount fields, or some value that is not a record at all. */
  datatype HistoryItem = Txn(timestamp: Option<real>, amount: Option<real>) | NotATxn

  datatype ReasonCode = Clear | VelocityExceeded | StructuringDetected | BaselineRisk

  /** The result of `predict_risk`: the baseline on an empty history, or the
      capped score with its reason code and the weighted contributions. */
  datatype Prediction =
    | NoData(score: real)
    | Scored(score: real, reasonCode: ReasonCode, velocityContribution: real,
             structuringContribution: real, baseline: real)

  /** Exceptions the analyst can raise: a missing `baseline_risk` on an empty
      history, or a zero velocity threshold. */
  datatype AnalystError = MissingKey(key: string) | DivisionByZero

  /** The constructor's choice: the loaded document when it is a non-empty
      object, otherwise the fallback weights. */
  function InitWeights(loaded: Option<Weights>): (w: Weights)
    ensures loaded.Some? && loaded.value != map[] ==> w == loaded.value
    ensures loaded.None? || loaded.value == map[] ==> w == FallbackWeights
  {
    if loaded.Some? && loaded.value != map[] then loaded.value else FallbackWeights
  }

  /** `weights.get(key, default)`. */
  function Get(w: Weights, key: string, default: real): real
  {
    if key in w then w[key] else default
  }

  /** The fallback weights as the tests state them. */
  lemma FallbackValues()
    ensures var w := InitWeights(None);
      && Get(w, "velocity_weight", 0.6) == 0.8
      && Get(w, "structuring_weight", 0.25) == 0.2
      && Get(w, "velocity_threshold_1h", 5.0) == 8.0
      && Get(w, "structuring_threshold", 9000.0) == 9500.0
      && Get(w, "baseline_risk", 0.05) == 0.1
  {
  }

  // ---------------------------------------------------------------------
  // Velocity
  // ---------------------------------------------------------------------

  /** Whether an entry counts towards the hourly velocity: records whose
      timestamp (0 when missing) lies less than an hour before `now`. */
  predicate IsRecent(t: HistoryItem, now: real) {
    t.Txn? && now - t.timestamp.GetOr(0.0) < WindowSeconds
  }

  /** The number of recent entries. */
  function RecentCount(history: seq<HistoryItem>, now: real): (n: nat)
    ensures n <= |history|
  {
    if history == [] then 0
    else
      var k := |history| - 1;
      RecentCount(history[..k], now) + (if IsRecent(history[k], now) then 1 else 0)
  }

  /** The recent entries, as positions of the history. */
  ghost function RecentPositions(history: seq<HistoryItem>, now: real): set<nat>
  {
    set i: nat | i < |history| && IsRecent(history[i], now)
  }

  /** The count is exactly the number of positions holding a recent entry. */
  lemma {:induction false} RecentCountIsCardinality(history: seq<HistoryItem>, now: real)
    ensures RecentCount(history, now) == |RecentPositions(history, now)|
    decreases |history|
  {
    if history == [] {
      assert RecentPositions(history, now) == {};
    } else {
      var k := |history| - 1;
      var front := history[..k];
      RecentCountIsCardinality(front, now);
      var last: set<nat> := if IsRecent(history[k], now) then {k} else {};
      forall i: nat | i < k
        ensures i in RecentPositions(history, now) <==> i in RecentPositions(front, now)
      {
        assert history[i] == front[i];
      }
      assert RecentPositions(history, now) == RecentPositions(front, now) + last;
      assert k !in RecentPositions(front, now);
    }
  }

  /** `_calculate_velocities`: 0 on an empty history, otherwise the recent
      count over twice the threshold (5 when unset), saturated at 1. */
  function VelocityScore(w: Weights, history: seq<HistoryItem>, now: real): (r: Result<real, AnalystError>)
    ensures history == [] ==> r == Ok(0.0)
    ensures r.Err? <==> history != [] && Get(w, "velocity_threshold_1h", 5.0) == 0.0
    ensures r.Ok? ==> r.value <= 1.0
  {
    if history == [] then Ok(0.0)
    else
      var threshold := Get(w, "velocity_threshold_1h", 5.0);
      if threshold == 0.0 then Err(DivisionByZero)
      else
        var raw := RecentCount(history, now) as real / (threshold * 2.0);
        Ok(if raw < 1.0 then raw else 1.0)
  }

  /** The value of the velocity feature on a non-empty history: the recent
      count over twice the threshold while that ratio is below 1, and 1 from
      there on; never negative for a positive threshold. */
  lemma VelocityScoreValue(w: Weights, history: seq<HistoryItem>, now: real)
    requires history != [] && Get(w, "velocity_threshold_1h", 5.0) != 0.0
    ensures var r := VelocityScore(w, history, now);
      var t := Get(w, "velocity_threshold_1h", 5.0);
      var count := RecentCount(history, now) as real;
      && r.Ok?
      && (count / (t * 2.0) < 1.0 ==> r.value * (t * 2.0) == count)
      && (count / (t * 2.0) >= 1.0 ==> r.value == 1.0)
      && (t > 0.0 ==> 0.0 <= r.value)
  {
    var t := Get(w, "velocity_threshold_1h", 5.0);
    var count := RecentCount(history, now) as real;
    SaturatedRatio(count, t * 2.0, VelocityScore(w, history, now).value);
  }

  /** The facts about `min(count / d, 1)` the velocity feature relies on. */
  lemma SaturatedRatio(count: real, d: real, v: real)
    requires d != 0.0 && count >= 0.0
    requires v == if count / d < 1.0 then count / d else 1.0
    ensures count / d < 1.0 ==> v * d == count
    ensures count / d >= 1.0 ==> v == 1.0
    ensures d > 0.0 ==> 0.0 <= v
  {
  }

  // ---------------------------------------------------------------------
  // Structuring and the score
  // ---------------------------------------------------------------------

  /** `_detect_structuring`: 1 exactly when the amount lies in
      `[threshold, 10000)`, with the threshold 9000 when unset. */
  function StructuringScore(w: Weights, amount: real): (s: real)
    ensures s == 1.0 <==> Get(w, "structuring_threshold", 9000.0) <= amount < ReportingLimit
    ensures s == 0.0 || s == 1.0
  {
    if amount >= Get(w, "structuring_threshold", 9000.0) && amount < ReportingLimit then 1.0 else 0.0
  }

  /** The amount scored: that of the last entry, 0 when it is missing or the
      entry is not a record. */
  function LastAmount(history: seq<HistoryItem>): (a: real)
    requires history != []
    ensures var last := history[|history| - 1];
      a == if last.Txn? && last.amount.Some? then last.amount.value else 0.0
  {
    match history[|history| - 1]
    case Txn(_, amount) => amount.GetOr(0.0)
    case NotATxn => 0.0
  }

  /** The reason code: clear up to 0.5; above it the velocity contribution
      wins if it is strictly larger, then structuring if detected at all,
      else the baseline. */
  function ReasonFor(total: real, velocityContribution: real, structuringContribution: real,
                     structuring: real): (rc: ReasonCode)
    ensures rc == Clear <==> total <= AlertThreshold
    ensures rc == VelocityExceeded <==> total > AlertThreshold && velocityContribution > structuringContribution
    ensures rc == StructuringDetected <==>
      total > AlertThreshold && velocityContribution <= structuringContribution && structuring > 0.0
    ensures rc == BaselineRisk <==>
      total > AlertThreshold && velocityContribution <= structuringContribution && structuring <= 0.0
  {
    if total <= AlertThreshold then Clear
    else if velocityContribution > structuringContribution then VelocityExceeded
    else if structuring > 0.0 then StructuringDetected
    else BaselineRisk
  }

  /** The scoring step of `predict_risk` once the velocity feature `vs` and
      the amount are known: the weighted contributions, the capped total and
      the reason code. */
  function Combine(w: Weights, vs: real, amount: real): (p: Prediction)
    ensures p.Scored?
    ensures var total := p.baseline + p.velocityContribution + p.structuringContribution;
      && p.score == (if total < 1.0 then total else 1.0)
      && p.score <= 1.0
      && (p.reasonCode == Clear <==> p.score <= AlertThreshold)
      && p.baseline == Get(w, "baseline_risk", 0.05)
      && p.velocityContribution == vs * Get(w, "velocity_weight", 0.6)
      && p.structuringContribution == StructuringScore(w, amount) * Get(w, "structuring_weight", 0.25)
      && p.reasonCode == ReasonFor(total, p.velocityContribution, p.structuringContribution,
                                   StructuringScore(w, amount))
  {
    var ss := StructuringScore(w, amount);
    var vc := vs * Get(w, "velocity_weight", 0.6);
    var sc := ss * Get(w, "structuring_weight", 0.25);
    var baseline := Get(w, "baseline_risk", 0.05);
    var total := baseline + vc + sc;
    Scored(if total < 1.0 then total else 1.0, ReasonFor(total, vc, sc, ss), vc, sc, baseline)
  }

  /** `predict_risk` at time `now` (rounding of the reported figures aside). */
  function PredictRisk(w: Weights, history: seq<HistoryItem>, now: real): (r: Result<Prediction, AnalystError>)
    ensures history == [] ==>
      r == if "baseline_risk" in w then Ok(NoData(w["baseline_risk"])) else Err(MissingKey("baseline_risk"))
    ensures history != [] && r.Ok? ==>
      && VelocityScore(w, history, now).Ok?
      && r.value == Combine(w, VelocityScore(w, history, now).value, LastAmount(history))
    ensures history != [] ==> (r.Err? <==> Get(w, "velocity_threshold_1h", 5.0) == 0.0)
  {
    if history == [] then
      if "baseline_risk" in w then Ok(NoData(w["baseline_risk"])) else Err(MissingKey("baseline_risk"))
    else
      match VelocityScore(w, history, now)
      case Err(e) => Err(e)
      case Ok(vs) => Ok(Combine(w, vs, LastAmount(history)))
  }

  /** The tests' smurfing regression: under the fallback weights, sixteen or
      more transactions within the hour saturate the velocity feature, so the
      score exceeds 0.8 and the reason is excess velocity, whatever the
      amounts. */
  lemma SmurfingIsFlagged(history: seq<HistoryItem>, now: real)
    requires RecentCount(history, now) >= 16
    ensures var r := PredictRisk(FallbackWeights, history, now);
      r.Ok? && r.value.Scored? && r.value.score > 0.8 && r.value.reasonCode == VelocityExceeded
  {
    assert history != [];
    var vs := VelocityScore(FallbackWeights, history, now);
    assert vs == Ok(1.0);
  }

  /** A single recent transaction of ordinary size is clear under the
      fallback weights: 0.1 + 0.8/16 = 0.15. */
  lemma SingleSmallTransactionIsClear(now: real, ts: real, amount: real)
    requires now - ts < WindowSeconds && amount < 9500.0
    ensures var r := PredictRisk(FallbackWeights, [Txn(Some(ts), Some(amount))], now);
      r.Ok? && r.value.Scored? && r.value.score == 0.15 && r.value.reasonCode == Clear
  {
    var h := [Txn(Some(ts), Some(amount))];
    assert RecentCount(h, now) == 1;
  }
}

=== FILE: iso_parser.dfy ===
/** The ISO 20022 credit-transfer decoder (`IsoParser::parse`) and the record
    it fills (`PaymentData`). The XML text is taken as an already-parsed
    tree; loading and well-formedness checking belong to the XML library and
    are represented by the caller passing `None` for an unparseable line. */
module IsoParser {
  import opened Wrappers
  import opened Decimal

  datatype XmlAttr = XmlAttr(name: string, value: string)

  /** An element: its tag, attributes in document order, the text of its
      first character-data child (empty when it has none) and its child
      elements in document order. */
  datatype XmlNode = XmlNode(name: string, attrs: seq<XmlAttr>, text: string, children: seq<XmlNode>)

  /** A loaded document: its top-level elements. */
  datatype XmlDocument = XmlDocument(top: seq<XmlNode>)

  /** The fixed-layout decoded record. Names keep at most 63 characters, the
      transaction reference at most 36, the currency 3; `amount` is in
      micro-units (10^-6 of the currency unit). */
  datatype PaymentData = PaymentData(
    debtorName: string,
    creditorName: string,
    currency: string,
    uetr: string,
    amount: int,
    validSchema: bool)

  const MaxNameLength: nat := 63
  const MaxUetrLength: nat := 36
  const MicrosPerUnit: nat := 1000000
  const FractionDigits: nat := 6

  /** Currencies the decoder accepts. */
  const AllowedCurrencies: set<string> := {"EUR", "USD", "GBP"}

  /** The invariant every successfully decoded record satisfies. */
  ghost predicate WellFormed(p: PaymentData) {
    && p.validSchema
    && p.amount > 0
    && p.currency in AllowedCurrencies
    && |p.debtorName| <= MaxNameLength
    && |p.creditorName| <= MaxNameLength
    && |p.uetr| <= MaxUetrLength
  }

  // ---------------------------------------------------------------------
  // Tree navigation (the XML library's `child`, `attribute` and `text`)
  // ---------------------------------------------------------------------

  /** The first element of `nodes` with tag `name`; `FirstNamedSpec` and
      `FirstNamedAt` state what it finds. */
  function FirstNamed(nodes: seq<XmlNode>, name: string): (r: Option<XmlNode>)
    ensures r.Some? ==> r.value.name == name
  {
    if nodes == [] then None
    else if nodes[0].name == name then Some(nodes[0])
    else FirstNamed(nodes[1..], name)
  }

  /** The lookup finds nothing exactly when no element has the tag, and
      otherwise an element with the tag that no earlier element has. */
  lemma {:induction false} FirstNamedSpec(nodes: seq<XmlNode>, name: string)
    ensures FirstNamed(nodes, name).None? <==> forall i | 0 <= i < |nodes| :: nodes[i].name != name
    ensures FirstNamed(nodes, name).Some? ==>
      exists i | 0 <= i < |nodes| :: nodes[i] == FirstNamed(nodes, name).value
                                   && forall j | 0 <= j < i :: nodes[j].name != name
  {
    if nodes != [] && nodes[0].name != name {
      var r := FirstNamed(nodes[1..], name);
      FirstNamedSpec(nodes[1..], name);
      if r.Some? {
        var i :| 0 <= i < |nodes[1..]| && nodes[1..][i] == r.value
                 && forall j | 0 <= j < i :: nodes[1..][j].name != name;
        assert nodes[i + 1] == r.value;
        assert forall j | 0 <= j < i + 1 :: nodes[j].name != name by {
          forall j | 0 <= j < i + 1 ensures nodes[j].name != name {
            if j > 0 { assert nodes[j] == nodes[1..][j - 1]; }
          }
        }
      } else {
        assert forall i | 0 <= i < |nodes| :: nodes[i].name != name by {
          forall i | 0 <= i < |nodes| ensures nodes[i].name != name {
            if i > 0 { assert nodes[i] == nodes[1..][i - 1]; }
          }
        }
      }
    }
  }

  /** An element with the tag that no earlier element has is what the lookup
      finds. */
  lemma {:induction false} FirstNamedAt(nodes: seq<XmlNode>, name: string, i: nat)
    requires i < |nodes| && nodes[i].name == name
    requires forall j | 0 <= j < i :: nodes[j].name != name
    ensures FirstNamed(nodes, name) == Some(nodes[i])
  {
    if i > 0 {
      assert nodes[0].name != name;
      assert forall j | 0 <= j < i - 1 :: nodes[1..][j].name != name by {
        forall j | 0 <= j < i - 1 ensures nodes[1..][j].name != name {
          assert nodes[1..][j] == nodes[j + 1];
        }
      }
      FirstNamedAt(nodes[1..], name, i - 1);
    }
  }

  /** `node.child(name)`, where a missing node propagates as missing. */
  function Child(node: Option<XmlNode>, name: string): Option<XmlNode>
  {
    match node
    case None => None
    case Some(n) => FirstNamed(n.children, name)
  }

  /** `child(first)` and, when that is missing, `child(second)`. */
  function ChildOr(node: Option<XmlNode>, first: string, second: string): Option<XmlNode>
  {
    var c := Child(node, first);
    if c.Some? then c else Child(node, second)
  }

  /** `attribute(name).value()`: the first attribute with that name, or the
      empty string. */
  function AttributeValue(attrs: seq<XmlAttr>, name: string): (v: string)
    ensures v != "" ==> exists i | 0 <= i < |attrs| :: attrs[i].name == name && attrs[i].value == v
  {
    if attrs == [] then ""
    else if attrs[0].name == name then attrs[0].value
    else
      AttributeValue(attrs[1..], name)
  }

  /** `AttributeValue` reads the first attribute with that name, and the
      empty string when there is none. */
  lemma {:induction false} AttributeValueFirst(attrs: seq<XmlAttr>, name: string, i: nat)
    requires i <= |attrs|
    requires forall j | 0 <= j < i :: attrs[j].name != name
    requires i < |attrs| ==> attrs[i].name == name
    ensures AttributeValue(attrs, name) == (if i < |attrs| then attrs[i].value else "")
    decreases i
  {
    if i > 0 {
      assert attrs[0].name != name;
      AttributeValueFirst(attrs[1..], name, i - 1);
    }
  }

  /** The `Document` element, or else the first top-level element. */
  function Root(doc: XmlDocument): Option<XmlNode>
  {
    var d := FirstNamed(doc.top, "Document");
    if d.Some? then d
    else if doc.top != [] then Some(doc.top[0])
    else None
  }

  /** `strncpy(dst, src, n)` followed by a terminator at `dst[n]`: the first
      `n` characters of `s`. */
  function Truncate(s: string, n: nat): (r: string)
    ensures |r| == if |s| <= n then |s| else n
    ensures r == s[..|r|]
  {
    if |s| <= n then s else s[..n]
  }

  // ---------------------------------------------------------------------
  // Fixed-point amount parsing
  // ---------------------------------------------------------------------

  /** Length of the run of digits at the front of `s`. */
  function LeadingDigits(s: string): (n: nat)
    ensures n <= |s| && AllDigits(s[..n])
    ensures n == |s| || !IsDigit(s[n])
  {
    if s == [] || !IsDigit(s[0]) then 0
    else
      var n := 1 + LeadingDigits(s[1..]);
      assert s[..n] == [s[0]] + s[1..][..n - 1];
      n
  }

  /** The digit run at the front of `s` is determined by where the first
      non-digit sits. */
  lemma {:induction false} LeadingDigitsUnique(s: string, n: nat)
    requires n <= |s| && AllDigits(s[..n]) && (n == |s| || !IsDigit(s[n]))
    ensures LeadingDigits(s) == n
    decreases n
  {
    if n > 0 {
      assert IsDigit(s[..n][0]);
      assert s[1..][..n - 1] == s[..n][1..];
      assert n - 1 == |s[1..]| || s[1..][n - 1] == s[n];
      LeadingDigitsUnique(s[1..], n - 1);
    }
  }

  /** The micro-units contributed by the text after the decimal point: at most
      six digits are read, and fewer are padded with zeros on the right
      ("5" means 500000). Digits past the sixth are ignored. */
  function FractionMicros(t: string): (f: nat)
    ensures f < MicrosPerUnit
  {
    var m := FractionDigitsRead(t);
    ValueBound(t[..m]);
    PowSplit(m);
    MulMonotone(Value(t[..m]), Pow10(m), Pow10(FractionDigits - m));
    Value(t[..m]) * Pow10(FractionDigits - m)
  }

  lemma MulMonotone(a: nat, b: nat, c: nat)
    requires a < b && c > 0
    ensures a * c < b * c
  {
    assert b * c - a * c == (b - a) * c;
  }

  lemma PowSplit(m: nat)
    requires m <= FractionDigits
    ensures Pow10(m) * Pow10(FractionDigits - m) == MicrosPerUnit
  {
    assert Pow10(6) == 1000000;
    PowAdd(m, FractionDigits - m);
  }

  lemma {:induction false} PowAdd(a: nat, b: nat)
    ensures Pow10(a) * Pow10(b) == Pow10(a + b)
  {
    if a > 0 {
      PowAdd(a - 1, b);
      assert Pow10(a) * Pow10(b) == 10 * (Pow10(a - 1) * Pow10(b));
    }
  }

  /** The decoder's reading of an amount text: an optional leading `-`, the
      integral digits, then optionally `.` and up to six fractional digits;
      the value is `sign * (integral * 10^6 + fraction)`. Whatever follows
      the digits read is ignored. */
  function AmountMicros(s: string): int
  {
    var negative := |s| > 0 && s[0] == '-';
    var rest := if negative then s[1..] else s;
    var n := LeadingDigits(rest);
    var after := rest[n..];
    var fraction := if |after| > 0 && after[0] == '.' then FractionMicros(after[1..]) else 0;
    (if negative then -1 else 1) * (Value(rest[..n]) * MicrosPerUnit + fraction)
  }

  /** The integral-part loop: accumulates the digit run starting at `start`
      and returns the position of the first character after it. */
  method ParseDigitRun(s: string, start: nat) returns (value: nat, end: nat)
    requires start <= |s|
    ensures end == start + LeadingDigits(s[start..]) && end <= |s|
    ensures AllDigits(s[start..end]) && value == Value(s[start..end])
  {
    value, end := 0, start;
    while end < |s| && IsDigit(s[end])
      invariant start <= end <= |s|
      invariant AllDigits(s[start..end])
      invariant value == Value(s[start..end])
    {
      ValueSnoc(s[start..end], s[end]);
      assert s[start..end + 1] == s[start..end] + [s[end]];
      value := value * 10 + DigitValue(s[end]);
      end := end + 1;
    }
    assert s[start..][..end - start] == s[start..end];
    LeadingDigitsUnique(s[start..], end - start);
  }

  /** The number of fractional digits read: the digit run, cut at six. */
  function FractionDigitsRead(t: string): (m: nat)
    ensures m <= FractionDigits && m <= |t| && AllDigits(t[..m])
  {
    if LeadingDigits(t) < FractionDigits then LeadingDigits(t) else FractionDigits
  }

  lemma FractionDigitsReadAt(t: string, k: nat)
    requires k <= FractionDigits && k <= |t| && AllDigits(t[..k])
    requires k == FractionDigits || k == |t| || !IsDigit(t[k])
    ensures FractionDigitsRead(t) == k
  {
    if k < FractionDigits {
      LeadingDigitsUnique(t, k);
    }
  }

  /** The first fractional loop: reads at most six digits starting at
      `start` and returns their value and how many were read. */
  method ReadFractionDigits(s: string, start: nat) returns (value: nat, digits: nat)
    requires start <= |s|
    ensures digits == FractionDigitsRead(s[start..])
    ensures value == Value(s[start..][..digits])
  {
    var p := start;
    digits := 0;
    value := 0;
    while p < |s| && IsDigit(s[p]) && digits < FractionDigits
      invariant start <= p <= |s| && p == start + digits && digits <= FractionDigits
      invariant AllDigits(s[start..p])
      invariant value == Value(s[start..p])
    {
      ValueSnoc(s[start..p], s[p]);
      assert s[start..p + 1] == s[start..p] + [s[p]];
      value := value * 10 + DigitValue(s[p]);
      p := p + 1;
      digits := digits + 1;
    }
    assert s[start..][..digits] == s[start..p];
    FractionDigitsReadAt(s[start..], digits);
  }

  /** The fractional-part loops: reads at most six digits starting at
      `start`, then multiplies by ten once per missing digit. */
  method ParseFraction(s: string, start: nat) returns (fraction: nat)
    requires start <= |s|
    ensures fraction == FractionMicros(s[start..])
  {
    var value, digits := ReadFractionDigits(s, start);
    fraction := PadFraction(value, digits);
  }

  /** The padding loop: one multiplication by ten per digit short of six. */
  method PadFraction(f: nat, digits: nat) returns (padded: nat)
    requires digits <= FractionDigits
    ensures padded == f * Pow10(FractionDigits - digits)
  {
    padded := f;
    var d := digits;
    while d < FractionDigits
      invariant digits <= d <= FractionDigits
      invariant padded == f * Pow10(d - digits)
    {
      padded := padded * 10;
      d := d + 1;
    }
  }

  /** The amount routine written as the decoder's pointer walk over the text:
      sign, integral loop, then the fractional loops after a `.`. */
  method ParseAmount(s: string) returns (amount: int)
    ensures amount == AmountMicros(s)
  {
    var sign := 1;
    var p := 0;
    if |s| > 0 && s[0] == '-' {
      sign := -1;
      p := 1;
    }
    ghost var rest := s[p..];
    assert rest == if |s| > 0 && s[0] == '-' then s[1..] else s;
    var integrals, q := ParseDigitRun(s, p);
    ghost var n := LeadingDigits(rest);
    assert q == p + n;
    assert rest[..n] == s[p..q];
    assert rest[n..] == s[q..];
    var fractionals := 0;
    if q < |s| && s[q] == '.' {
      fractionals := ParseFraction(s, q + 1);
      assert s[q..][1..] == s[q + 1..];
    }
    ghost var after := rest[n..];
    assert fractionals == if |after| > 0 && after[0] == '.' then FractionMicros(after[1..]) else 0;
    assert integrals == Value(rest[..n]);
    assert sign == if |s| > 0 && s[0] == '-' then -1 else 1;
    amount := sign * (integrals * MicrosPerUnit + fractionals);
  }

  // ---------------------------------------------------------------------
  // The decoder
  // ---------------------------------------------------------------------

  /** The `InstdAmt` element of a payment block. */
  function AmountNode(block: Option<XmlNode>): Option<XmlNode>
  {
    Child(Child(block, "Amt"), "InstdAmt")
  }

  /** The message container: `CstmrCdtTrfinitn` (pain.001) or else
      `FIToFICdtTrf` (pacs.008). */
  function Container(doc: XmlDocument): Option<XmlNode>
  {
    ChildOr(Root(doc), "CstmrCdtTrfinitn", "FIToFICdtTrf")
  }

  /** The payment block: `PmtInf` or else `CdtTrfTxInf`. */
  function Block(doc: XmlDocument): Option<XmlNode>
  {
    ChildOr(Container(doc), "PmtInf", "CdtTrfTxInf")
  }

  /** The transaction reference: `PmtId/UETR` or else `PmtId/EndToEndId`. */
  function IdNode(doc: XmlDocument): Option<XmlNode>
  {
    ChildOr(Child(Block(doc), "PmtId"), "UETR", "EndToEndId")
  }

  /** The `Nm` element of the debtor (`Dbtr`) or creditor (`Cdtr`). */
  function NameNode(doc: XmlDocument, party: string): Option<XmlNode>
  {
    Child(Child(Block(doc), party), "Nm")
  }

  /** Everything the decoder requires of a document: the reference, both
      names and the amount element present, an allow-listed currency, and a
      non-empty amount text that reads as strictly positive. */
  ghost predicate Decodable(doc: XmlDocument) {
    var amt := AmountNode(Block(doc));
    && IdNode(doc).Some?
    && NameNode(doc, "Dbtr").Some? && NameNode(doc, "Cdtr").Some?
    && amt.Some?
    && AttributeValue(amt.value.attrs, "Ccy") in AllowedCurrencies
    && amt.value.text != ""
    && AmountMicros(amt.value.text) > 0
  }

  /** `IsoParser::parse` on a loaded document. The lookups run in the source's
      order; any missing element, a currency outside the allow-list, an empty
      amount text or an amount that is not strictly positive rejects the
      message as a whole. */
  function Parse(doc: XmlDocument): (r: Option<PaymentData>)
    ensures r.Some? <==> Decodable(doc)
    ensures r.Some? ==> WellFormed(r.value)
    ensures r.Some? ==>
      var amt := AmountNode(Block(doc)).value;
      r.value == PaymentData(
        Truncate(NameNode(doc, "Dbtr").value.text, MaxNameLength),
        Truncate(NameNode(doc, "Cdtr").value.text, MaxNameLength),
        AttributeValue(amt.attrs, "Ccy"),
        Truncate(IdNode(doc).value.text, MaxUetrLength),
        AmountMicros(amt.text),
        true)
    ensures doc.top == [] ==> r.None?
    ensures Container(doc).None? ==> r.None?
    ensures Child(Block(doc), "PmtId").None? ==> r.None?
    ensures IdNode(doc).None? ==> r.None?
  {
    var idNode := IdNode(doc);
    var debtorNm := NameNode(doc, "Dbtr");
    var creditorNm := NameNode(doc, "Cdtr");
    var amt := AmountNode(Block(doc));
    if idNode.None? || debtorNm.None? || creditorNm.None? || amt.None? then None
    else
      var ccy := AttributeValue(amt.value.attrs, "Ccy");
      var text := amt.value.text;
      if |ccy| != 3 || ccy !in AllowedCurrencies || text == "" || AmountMicros(text) <= 0 then None
      else Some(PaymentData(
        Truncate(debtorNm.value.text, MaxNameLength),
        Truncate(creditorNm.value.text, MaxNameLength),
        ccy,
        Truncate(idNode.value.text, MaxUetrLength),
        AmountMicros(text),
        true))
  }

  /** Without a `UETR`, the reference is taken from `EndToEndId`, as for the
      pacs.008 test message. */
  lemma EndToEndIdIsTheFallback(doc: XmlDocument)
    requires Child(Child(Block(doc), "PmtId"), "UETR").None?
    requires Decodable(doc)
    ensures Child(Child(Block(doc), "PmtId"), "EndToEndId").Some?
    ensures Parse(doc).Some?
    ensures Parse(doc).value.uetr
         == Truncate(Child(Child(Block(doc), "PmtId"), "EndToEndId").value.text, MaxUetrLength)
  {
  }

  // ---------------------------------------------------------------------
  // Properties of the amount reading
  // ---------------------------------------------------------------------

  // The worked amounts of the decoder's tests, one lemma each: two decimals,
  // one decimal right-padded, a bare zero and a negative amount.

  lemma AmountFifteenHundred()
    ensures AmountMicros("1500.00") == 1500000000
  {
    Value1500();
    TwoDecimals("1500", 1500);
    assert "1500" + ".00" == "1500.00";
  }

  lemma AmountHundred()
    ensures AmountMicros("100.00") == 100000000
  {
    Value100();
    TwoDecimals("100", 100);
    assert "100" + ".00" == "100.00";
  }

  lemma AmountNegative()
    ensures AmountMicros("-500.00") == -500000000
  {
    Value500();
    TwoDecimals("500", 500);
    assert "500" + ".00" == "500.00";
    NegatedAmount("500.00");
    assert "-" + "500.00" == "-500.00";
  }

  lemma BareZero()
    ensures AmountMicros("0") == 0
  {
    LeadingDigitsUnique("0", 1);
    assert "0"[..1] == "0";
    assert "0"[1..] == [];
  }

  /** A leading `-` negates what the rest of the text reads as. */
  lemma NegatedAmount(t: string)
    requires |t| == 0 || t[0] != '-'
    ensures AmountMicros("-" + t) == -AmountMicros(t)
  {
    assert ("-" + t)[1..] == t;
  }

  lemma OneCent()
    ensures AmountMicros("0.01") == 10000
  {
    var s := "0.01";
    LeadingDigitsUnique(s, 1);
    assert s[..1] == "0";
    assert s[1..] == ".01";
    var t := ".01"[1..];
    assert t == "01";
    LeadingDigitsUnique(t, 2);
    assert FractionDigitsRead(t) == 2;
    assert t[..2] == "01";
    assert Value("01") == 1 by { ValueSnoc("0", '1'); assert "0" + ['1'] == "01"; }
    assert Pow10(4) == 10000;
    assert FractionMicros(t) == 10000;
  }

  lemma OneHalf()
    ensures AmountMicros("0.5") == 500000
  {
    var s := "0.5";
    LeadingDigitsUnique(s, 1);
    assert s[..1] == "0";
    assert s[1..] == ".5";
    var t := ".5"[1..];
    assert t == "5";
    LeadingDigitsUnique(t, 1);
    assert FractionDigitsRead(t) == 1;
    assert t[..1] == "5";
    assert Pow10(5) == 100000;
    assert FractionMicros(t) == 500000;
  }

  /** `digits` followed by ".00" reads as `v` whole units. */
  lemma TwoDecimals(digits: string, v: nat)
    requires |digits| >= 1 && AllDigits(digits) && Value(digits) == v
    ensures AmountMicros(digits + ".00") == v * MicrosPerUnit
  {
    var s := digits + ".00";
    assert s[0] != '-';
    assert s[..|digits|] == digits;
    LeadingDigitsUnique(s, |digits|);
    assert s[|digits|..] == ".00";
    var t := ".00"[1..];
    assert t == "00";
    LeadingDigitsUnique(t, 2);
    assert t[..2] == "00";
    assert Value("00") == 0 by { ValueSnoc("0", '0'); assert "0" + ['0'] == "00"; }
    assert FractionMicros(t) == 0;
  }

  lemma Value1500()
    ensures AllDigits("1500") && Value("1500") == 1500
  {
    ValueSnoc("1", '5'); assert "1" + ['5'] == "15";
    ValueSnoc("15", '0'); assert "15" + ['0'] == "150";
    ValueSnoc("150", '0'); assert "150" + ['0'] == "1500";
  }

  lemma Value100()
    ensures AllDigits("100") && Value("100") == 100
  {
    ValueSnoc("1", '0'); assert "1" + ['0'] == "10";
    ValueSnoc("10", '0'); assert "10" + ['0'] == "100";
  }

  lemma Value500()
    ensures AllDigits("500") && Value("500") == 500
  {
    ValueSnoc("5", '0'); assert "5" + ['0'] == "50";
    ValueSnoc("50", '0'); assert "50" + ['0'] == "500";
  }

  /** With at most twelve integral digits the amount fits the source's signed
      64-bit field: its magnitude stays below 10^18 < 2^63. */
  lemma AmountFitsInt64(s: string)
    requires
      var rest := if |s| > 0 && s[0] == '-' then s[1..] else s;
      LeadingDigits(rest) <= 12
    ensures -0x8000_0000_0000_0000 < AmountMicros(s) < 0x8000_0000_0000_0000
  {
    var rest := if |s| > 0 && s[0] == '-' then s[1..] else s;
    var n := LeadingDigits(rest);
    ValueBound(rest[..n]);
    PowMonotone(n, 12);
    assert Pow10(12) == 1000000000000;
    var v := Value(rest[..n]);
    assert v <= 999999999999;
    assert v * MicrosPerUnit <= 999999999999 * 1000000;
  }

  lemma {:induction false} PowMonotone(a: nat, b: nat)
    requires a <= b
    ensures Pow10(a) <= Pow10(b)
  {
    if a < b {
      PowMonotone(a, b - 1);
    }
  }

  /** A text that starts with `-` never yields a positive amount, so the
      decoder refuses every negative instruction. */
  lemma NegativeTextNeverPositive(s: string)
    requires |s| > 0 && s[0] == '-'
    ensures AmountMicros(s) <= 0
  {
  }

  // ---------------------------------------------------------------------
  // Worked decodings
  // ---------------------------------------------------------------------

  function Leaf(name: string, text: string): XmlNode {
    XmlNode(name, [], text, [])
  }

  /** A credit-transfer initiation message laid out as in the decoder's tests. */
  function SampleMessage(uetr: string, debtor: string, creditor: string, ccyAttrs: seq<XmlAttr>, amount: string): XmlDocument
  {
    XmlDocument([XmlNode("Document", [], "", [XmlNode("CstmrCdtTrfinitn", [], "", [SampleBlock(uetr, debtor, creditor, ccyAttrs, amount)])])])
  }

  function SampleBlock(uetr: string, debtor: string, creditor: string, ccyAttrs: seq<XmlAttr>, amount: string): XmlNode
  {
    XmlNode("PmtInf", [], "", [
      XmlNode("PmtId", [], "", [Leaf("UETR", uetr)]),
      XmlNode("Dbtr", [], "", [Leaf("Nm", debtor)]),
      XmlNode("Cdtr", [], "", [Leaf("Nm", creditor)]),
      XmlNode("Amt", [], "", [XmlNode("InstdAmt", ccyAttrs, amount, [])])])
  }

  /** On a message of the tests' shape every element lookup succeeds, so the
      outcome rests on the currency attribute and the amount text alone. */
  lemma ParseSampleMessage(uetr: string, debtor: string, creditor: string, ccyAttrs: seq<XmlAttr>, amount: string)
    ensures
      var ccy := AttributeValue(ccyAttrs, "Ccy");
      Parse(SampleMessage(uetr, debtor, creditor, ccyAttrs, amount))
      == if ccy in AllowedCurrencies && amount != "" && AmountMicros(amount) > 0
         then Some(PaymentData(Truncate(debtor, MaxNameLength), Truncate(creditor, MaxNameLength), ccy,
                               Truncate(uetr, MaxUetrLength), AmountMicros(amount), true))
         else None
  {
    var doc := SampleMessage(uetr, debtor, creditor, ccyAttrs, amount);
    var blockNode := SampleBlock(uetr, debtor, creditor, ccyAttrs, amount);
    var cct := XmlNode("CstmrCdtTrfinitn", [], "", [blockNode]);
    assert Root(doc) == Some(doc.top[0]);
    assert Child(Root(doc), "CstmrCdtTrfinitn") == Some(cct);
    var block := ChildOr(Some(cct), "PmtInf", "CdtTrfTxInf");
    assert block == Some(blockNode);
    assert Child(block, "PmtId") == Some(blockNode.children[0]);
    assert Child(Some(blockNode.children[0]), "UETR") == Some(Leaf("UETR", uetr));
    FirstNamedAt(blockNode.children, "Dbtr", 1);
    assert Child(block, "Dbtr") == Some(blockNode.children[1]);
    assert Child(Some(blockNode.children[1]), "Nm") == Some(Leaf("Nm", debtor));
    FirstNamedAt(blockNode.children, "Cdtr", 2);
    assert Child(block, "Cdtr") == Some(blockNode.children[2]);
    assert Child(Some(blockNode.children[2]), "Nm") == Some(Leaf("Nm", creditor));
    FirstNamedAt(blockNode.children, "Amt", 3);
    assert Child(block, "Amt") == Some(blockNode.children[3]);
    assert AmountNode(block) == Some(XmlNode("InstdAmt", ccyAttrs, amount, []));
  }

  /** The well-formed test message decodes to the expected record. */
  lemma DecodesSampleMessage()
    ensures Parse(SampleMessage("550e8400-e29b-41d4-a716-446655440000", "Alice Smith", "Bob Jones",
                                [XmlAttr("Ccy", "EUR")], "1500.00"))
         == Some(PaymentData("Alice Smith", "Bob Jones", "EUR",
                             "550e8400-e29b-41d4-a716-446655440000", 1500000000, true))
  {
    AmountFifteenHundred();
    ParseSampleMessage("550e8400-e29b-41d4-a716-446655440000", "Alice Smith", "Bob Jones",
                       [XmlAttr("Ccy", "EUR")], "1500.00");
  }

  /** A message whose currency is not allowed, or whose amount text is
      empty or does not read as strictly positive, is rejected as a whole. */
  lemma RejectsSample(ccyAttrs: seq<XmlAttr>, amount: string)
    requires AttributeValue(ccyAttrs, "Ccy") !in AllowedCurrencies || amount == "" || AmountMicros(amount) <= 0
    ensures Parse(SampleMessage("u", "A", "B", ccyAttrs, amount)).None?
  {
    ParseSampleMessage("u", "A", "B", ccyAttrs, amount);
  }

  /** The rejection cases of the decoder's tests: zero, negative, unknown
      currency, missing currency attribute. */
  lemma RejectsZeroAmount()
    ensures Parse(SampleMessage("u", "A", "B", [XmlAttr("Ccy", "EUR")], "0")).None?
  {
    BareZero();
    RejectsSample([XmlAttr("Ccy", "EUR")], "0");
  }

  lemma RejectsNegativeAmount()
    ensures Parse(SampleMessage("u", "A", "B", [XmlAttr("Ccy", "EUR")], "-500.00")).None?
  {
    AmountNegative();
    RejectsSample([XmlAttr("Ccy", "EUR")], "-500.00");
  }

  lemma RejectsUnknownCurrency()
    ensures Parse(SampleMessage("u", "A", "B", [XmlAttr("Ccy", "XYZ")], "100.00")).None?
  {
    assert AttributeValue([XmlAttr("Ccy", "XYZ")], "Ccy") == "XYZ";
    RejectsSample([XmlAttr("Ccy", "XYZ")], "100.00");
  }

  lemma RejectsMissingCurrency()
    ensures Parse(SampleMessage("u", "A", "B", [], "100.00")).None?
  {
    RejectsSample([], "100.00");
  }

  /** The pacs.008 test message: an `FIToFICdtTrf` container whose
      `CdtTrfTxInf` block identifies the payment by `EndToEndId` only. */
  function FIToFIMessage(): XmlDocument
  {
    XmlDocument([XmlNode("Document", [], "", [XmlNode("FIToFICdtTrf", [], "", [FIToFIBlock()])])])
  }

  function FIToFIBlock(): XmlNode
  {
    XmlNode("CdtTrfTxInf", [], "", [
      XmlNode("PmtId", [], "", [Leaf("EndToEndId", "TXN-2024-001")]),
      XmlNode("Dbtr", [], "", [Leaf("Nm", "Corporate Ltd")]),
      XmlNode("Cdtr", [], "", [Leaf("Nm", "Supplier Inc")]),
      XmlNode("Amt", [], "", [XmlNode("InstdAmt", [XmlAttr("Ccy", "USD")], "50000.00", [])])])
  }

  lemma Value50000()
    ensures AllDigits("50000") && Value("50000") == 50000
  {
    Value500();
    ValueSnoc("500", '0'); assert "500" + ['0'] == "5000";
    ValueSnoc("5000", '0'); assert "5000" + ['0'] == "50000";
  }

  /** The pacs.008 message decodes, taking its reference from `EndToEndId`,
      with currency USD and 50 000 000 000 micro-units. */
  lemma DecodesFIToFIMessage()
    ensures var r := Parse(FIToFIMessage());
      && r.Some? && r.value.uetr == "TXN-2024-001" && r.value.currency == "USD"
      && r.value.amount == 50000000000
  {
    var doc := FIToFIMessage();
    var blockNode := FIToFIBlock();
    var container := XmlNode("FIToFICdtTrf", [], "", [blockNode]);
    assert Root(doc) == Some(doc.top[0]);
    assert Container(doc) == Some(container);
    assert Block(doc) == Some(blockNode);
    var pmtId := blockNode.children[0];
    assert Child(Block(doc), "PmtId") == Some(pmtId);
    assert Child(Some(pmtId), "UETR").None?;
    assert IdNode(doc) == Some(Leaf("EndToEndId", "TXN-2024-001"));
    FirstNamedAt(blockNode.children, "Dbtr", 1);
    FirstNamedAt(blockNode.children, "Cdtr", 2);
    FirstNamedAt(blockNode.children, "Amt", 3);
    assert NameNode(doc, "Dbtr").Some? && NameNode(doc, "Cdtr").Some?;
    var amt := XmlNode("InstdAmt", [XmlAttr("Ccy", "USD")], "50000.00", []);
    assert AmountNode(Block(doc)) == Some(amt);
    assert AttributeValue(amt.attrs, "Ccy") == "USD";
    Value50000();
    TwoDecimals("50000", 50000);
    assert "50000" + ".00" == "50000.00";
    assert Decodable(doc);
  }

  /** A name longer than 63 characters is cut to exactly 63, not rejected. */
  lemma LongNameIsTruncated(debtor: string)
    requires |debtor| > MaxNameLength
    ensures
      var r := Parse(SampleMessage("test-uetr", debtor, "Bob", [XmlAttr("Ccy", "EUR")], "0.01"));
      r.Some? && r.value.debtorName == debtor[..MaxNameLength] && r.value.amount == 10000
  {
    var attrs := [XmlAttr("Ccy", "EUR")];
    var amount := "0.01";
    OneCent();
    assert AttributeValue(attrs, "Ccy") == "EUR";
    assert "EUR" in AllowedCurrencies;
    ParseSampleMessage("test-uetr", debtor, "Bob", attrs, amount);
    assert Truncate(debtor, MaxNameLength) == debtor[..MaxNameLength];
  }
}

=== FILE: license_manager.dfy ===
/** The license validation of the Python sidecar (`LicenseManager`). A key
    is `base64url(json(payload)) + "." + hmac_hex(base64 part)`. JSON text,
    base64url and the keyed HMAC are an uninterpreted `Codec`; the laws a
    property relies on (decoding undoes encoding on the payload at hand, no
    "." in the encoded payload or in its HMAC) are stated, for that payload
    only, as preconditions of that property. The master key is fixed inside
    the codec's HMAC, and the clock is a parameter. */
module LicenseManager {
  import opened Wrappers

  /** A JSON value. */
  datatype Json =
    | JNull
    | JBool(b: bool)
    | JNum(n: real)
    | JStr(s: string)
    | JArr(items: seq<Json>)
    | JObj(fields: map<string, Json>)

  /** The encoders the manager uses: `json.dumps`/`json.loads` (None when
      the text is not JSON), base64url over UTF-8 text (None when the text
      does not decode) and the HMAC-SHA256 hex digest under the master key. */
  datatype Codec = Codec(dumps: Json -> string, loads: string -> Option<Json>,
                         b64encode: string -> string, b64decode: string -> Option<string>,
                         hmac: string -> string)

  /** The encoded form of a payload: the part of a key before the dot. */
  function Body(c: Codec, payload: Json): string {
    c.b64encode(c.dumps(payload))
  }

  /** The laws the round trip needs, for one payload: JSON and base64url
      decoding undo their encoders on it, and neither its base64url text nor
      the hex digest of that text contains a ".". */
  ghost predicate KeyLaws(c: Codec, payload: Json) {
    var body := Body(c, payload);
    && c.loads(c.dumps(payload)) == Some(payload)
    && c.b64decode(body) == Some(c.dumps(payload))
    && '.' !in body
    && '.' !in c.hmac(body)
  }

  /** Every payload has a codec obeying the laws, so the lemmas that assume
      them are not vacuous. */
  lemma KeyLawsSatisfiable(payload: Json)
    ensures exists c :: KeyLaws(c, payload)
  {
    var c := Codec(j => "p", t => Some(payload), s => s, s => Some(s), s => "sig");
    assert Body(c, payload) == "p";
    assert KeyLaws(c, payload);
  }

  // ---------------------------------------------------------------------
  // Tiers
  // ---------------------------------------------------------------------

  function Strings(xs: seq<string>): (j: Json)
    ensures j.JArr? && |j.items| == |xs|
  {
    if xs == [] then JArr([]) else JArr([JStr(xs[0])] + Strings(xs[1..]).items)
  }

  function Capabilities(maxTps: real, features: seq<string>, support: string, price: Json): (j: Json)
    ensures j.JObj? && "max_tps" in j.fields && j.fields["max_tps"] == JNum(maxTps)
  {
    JObj(map["max_tps" := JNum(maxTps), "features" := Strings(features),
             "support_level" := JStr(support), "price_mo" := price])
  }

  const CoreDefaults: Json := Capabilities(100.0, ["basic_scoring"], "standard", JNum(10000.0))
  const PrimeDefaults: Json :=
    Capabilities(-1.0, ["basic_scoring", "analyst", "zkp", "consortium"], "dedicated", JNum(20000.0))
  const SovereignDefaults: Json :=
    Capabilities(-1.0, ["all", "source_escrow"], "engineer_on_call", JStr("custom"))

  /** `get_tier_defaults`: the tier's capabilities, CORE's for any other
      tier. Every tier states a TPS limit. */
  function TierDefaults(tier: string): (caps: Json)
    ensures tier == "PRIME" ==> caps == PrimeDefaults
    ensures tier == "SOVEREIGN" ==> caps == SovereignDefaults
    ensures tier != "PRIME" && tier != "SOVEREIGN" ==> caps == CoreDefaults
    ensures caps.JObj? && "max_tps" in caps.fields
  {
    if tier == "PRIME" then PrimeDefaults
    else if tier == "SOVEREIGN" then SovereignDefaults
    else CoreDefaults
  }

  /** The manager's state: the current tier and capabilities. */
  datatype LicenseState = LicenseState(tier: Json, capabilities: Json)

  /** The state after construction and after any failed load. */
  const CoreState: LicenseState := LicenseState(JStr("CORE"), CoreDefaults)

  // ---------------------------------------------------------------------
  // Splitting on "."
  // ---------------------------------------------------------------------

  /** The parts joined back with "." in between. */
  function Join(parts: seq<string>): string
    requires parts != []
  {
    if |parts| == 1 then parts[0] else parts[0] + "." + Join(parts[1..])
  }

  lemma JoinTwo(parts: seq<string>)
    requires |parts| == 2
    ensures Join(parts) == parts[0] + "." + parts[1]
  {
    assert parts[1..] == [parts[1]];
  }

  /** Python's `str.split(".")`: the dot-free pieces that, joined with ".",
      give back the text. */
  function Split(s: string): (parts: seq<string>)
    ensures parts != []
    ensures forall i :: 0 <= i < |parts| ==> '.' !in parts[i]
    ensures Join(parts) == s
  {
    if s == [] then [""]
    else
      var rest := Split(s[1..]);
      if s[0] == '.' then [""] + rest
      else [[s[0]] + rest[0]] + rest[1..]
  }

  /** Splitting a text with exactly one dot gives its two sides. */
  lemma {:induction false} SplitTwo(a: string, b: string)
    requires '.' !in a && '.' !in b
    ensures Split(a + "." + b) == [a, b]
    decreases |a|
  {
    if a == [] {
      assert a + "." + b == "." + b;
      SplitNoDot(b);
    } else {
      SplitTwo(a[1..], b);
      assert (a + "." + b)[1..] == a[1..] + "." + b;
      assert (a + "." + b)[0] == a[0] != '.';
      assert [a[0]] + a[1..] == a;
    }
  }

  lemma {:induction false} SplitNoDot(s: string)
    requires '.' !in s
    ensures Split(s) == [s]
    decreases |s|
  {
    if s != [] {
      SplitNoDot(s[1..]);
      assert [s[0]] + s[1..] == s;
    }
  }

  // ---------------------------------------------------------------------
  // Keys
  // ---------------------------------------------------------------------

  /** The payload signed into a key. */
  function LicensePayload(client: string, tier: string, expiry: real): (j: Json)
    ensures j.JObj? && j.fields.Keys == {"client", "tier", "exp", "capabilities"}
    ensures j.fields["tier"] == JStr(tier) && j.fields["exp"] == JNum(expiry)
    ensures j.fields["capabilities"] == TierDefaults(tier) && j.fields["client"] == JStr(client)
  {
    JObj(map["client" := JStr(client), "tier" := JStr(tier), "exp" := JNum(expiry),
             "capabilities" := TierDefaults(tier)])
  }

  /** `generate_license_key`: the encoded payload, a dot, and its
      signature. When neither side contains a dot, the validator's split
      recovers the two sides and the signature it checks is the right one. */
  function GenerateLicenseKey(c: Codec, client: string, tier: string, expiry: real): (key: string)
    ensures var body := Body(c, LicensePayload(client, tier, expiry));
      && key == body + "." + c.hmac(body)
      && ('.' !in body && '.' !in c.hmac(body) ==>
            && Split(key) == [body, c.hmac(body)]
            && Split(key)[1] == c.hmac(Split(key)[0]))
  {
    var body := Body(c, LicensePayload(client, tier, expiry));
    var key := body + "." + c.hmac(body);
    if '.' !in body && '.' !in c.hmac(body) then SplitTwo(body, c.hmac(body)); key else key
  }

  /** The last steps of `load_license` once the payload is decoded: the
      expiry check and the fields the success path reads (`tier`,
      `capabilities`, `client`, and `max_tps` of the capabilities); any
      missing one raises, which the caller turns into a failure. */
  function Accept(payload: Json, now: real): (r: Option<LicenseState>)
    ensures r.Some? <==>
      && payload.JObj?
      && "exp" in payload.fields && payload.fields["exp"].JNum? && payload.fields["exp"].n >= now
      && "tier" in payload.fields && "capabilities" in payload.fields && "client" in payload.fields
      && payload.fields["capabilities"].JObj? && "max_tps" in payload.fields["capabilities"].fields
    ensures r.Some? ==> r.value == LicenseState(payload.fields["tier"], payload.fields["capabilities"])
  {
    if !payload.JObj? then None
    else
      var f := payload.fields;
      if "exp" !in f || !f["exp"].JNum? || f["exp"].n < now then None
      else if "tier" !in f || "capabilities" !in f || "client" !in f then None
      else if !f["capabilities"].JObj? || "max_tps" !in f["capabilities"].fields then None
      else Some(LicenseState(f["tier"], f["capabilities"]))
  }

  /** Everything `load_license` requires of a key: non-empty, two parts, a
      matching signature, and a base64url part that decodes to JSON the
      final checks accept. */
  ghost predicate Loadable(c: Codec, key: string, now: real) {
    var parts := Split(key);
    && key != ""
    && |parts| == 2 && parts[1] == c.hmac(parts[0])
    && c.b64decode(parts[0]).Some?
    && c.loads(c.b64decode(parts[0]).value).Some?
    && Accept(c.loads(c.b64decode(parts[0]).value).value, now).Some?
  }

  /** `load_license` at time `now`: the new state and the returned flag.
      The outcome does not depend on the state before the call. */
  function LoadLicense(c: Codec, key: string, now: real): (res: (LicenseState, bool))
    ensures res.1 <==> Loadable(c, key, now)
    ensures !res.1 ==> res.0 == CoreState
    ensures key == "" ==> !res.1
    ensures |Split(key)| != 2 ==> !res.1
    ensures |Split(key)| == 2 && Split(key)[1] != c.hmac(Split(key)[0]) ==> !res.1
    ensures res.1 ==>
      var parts := Split(key);
      && |parts| == 2 && key == parts[0] + "." + parts[1] && parts[1] == c.hmac(parts[0])
      && c.b64decode(parts[0]).Some? && c.loads(c.b64decode(parts[0]).value).Some?
      && var payload := c.loads(c.b64decode(parts[0]).value).value;
         Accept(payload, now) == Some(res.0)
  {
    if key == "" then (CoreState, false)
    else
      var parts := Split(key);
      if |parts| != 2 || parts[1] != c.hmac(parts[0]) then (CoreState, false)
      else
        match c.b64decode(parts[0])
        case None => (CoreState, false)
        case Some(text) =>
          match c.loads(text)
          case None => (CoreState, false)
          case Some(payload) =>
            match Accept(payload, now)
            case None => (CoreState, false)
            case Some(st) => JoinTwo(parts); (st, true)
  }

  /** A generated key loads while it has not expired, granting the tier it
      names and that tier's default capabilities. */
  lemma GeneratedKeyLoads(c: Codec, client: string, tier: string, expiry: real, now: real)
    requires KeyLaws(c, LicensePayload(client, tier, expiry))
    requires now <= expiry
    ensures LoadLicense(c, GenerateLicenseKey(c, client, tier, expiry), now)
      == (LicenseState(JStr(tier), TierDefaults(tier)), true)
  {
    var payload := LicensePayload(client, tier, expiry);
    var body := Body(c, payload);
    SplitTwo(body, c.hmac(body));
  }

  /** The same key is refused once its expiry has passed. */
  lemma ExpiredKeyIsRefused(c: Codec, client: string, tier: string, expiry: real, now: real)
    requires KeyLaws(c, LicensePayload(client, tier, expiry))
    requires expiry < now
    ensures LoadLicense(c, GenerateLicenseKey(c, client, tier, expiry), now) == (CoreState, false)
  {
    var payload := LicensePayload(client, tier, expiry);
    var body := Body(c, payload);
    SplitTwo(body, c.hmac(body));
  }

  /** In `a + "." + b` with no dot in `b`, the dot is the last one, so the
      two sides are determined by the text. */
  lemma LastDotUnique(a: string, b: string, a': string, b': string)
    requires '.' !in b && '.' !in b'
    requires a + "." + b == a' + "." + b'
    ensures a == a' && b == b'
  {
    var key := a + "." + b;
    var k := |key|;
    assert key[k - |b| - 1] == '.' && key[k - |b'| - 1] == '.';
    assert b == key[k - |b|..] == b';
    assert a == key[..k - |b| - 1] == a';
  }

  /** Putting another payload part in front of a generated key's signature,
      without re-signing, makes the key fail to load whenever the HMAC tells
      the two parts apart. */
  lemma TamperedKeyIsRefused(c: Codec, client: string, tier: string, expiry: real,
                             forged: string, now: real)
    requires '.' !in c.hmac(Body(c, LicensePayload(client, tier, expiry)))
    requires c.hmac(forged) != c.hmac(Body(c, LicensePayload(client, tier, expiry)))
    ensures var body := Body(c, LicensePayload(client, tier, expiry));
      LoadLicense(c, forged + "." + c.hmac(body), now) == (CoreState, false)
  {
    var sig := c.hmac(Body(c, LicensePayload(client, tier, expiry)));
    var key := forged + "." + sig;
    var parts := Split(key);
    if |parts| == 2 {
      JoinTwo(parts);
      LastDotUnique(parts[0], parts[1], forged, sig);
    }
  }
}

=== FILE: ring_buffer.dfy ===
/** The bounded single-producer/single-consumer ring buffer
    (`LockFreeRingBuffer<T, Size>`), modelled sequentially: a backing array of
    power-of-two length with a head index (next slot the producer writes) and
    a tail index (next slot the consumer reads). One slot is always left
    unused so that `head == tail` means empty, giving a usable capacity of
    `Size - 1`. The FIFO contents are an abstraction computed from the array
    and the two indices. */
module RingBuffer {
  import opened Wrappers
  import opened Bits

  datatype Ring<T> = Ring(sizeBits: nat, buf: seq<T>, head: nat, tail: nat)
  {
    /** `Size`, a power of two: `2^sizeBits`. */
    function Size(): nat { Pow2(sizeBits) }

    ghost predicate Valid() {
      |buf| == Size() && head < Size() && tail < Size()
    }

    /** The successor of a slot index, computed as `(i + 1) & (Size - 1)`. */
    function Next(i: nat): nat { MaskLow(i + 1, sizeBits) }

    /** Number of items waiting between tail and head. */
    function Count(): nat
      requires Valid()
    {
      if head >= tail then head - tail else head + Size() - tail
    }

    /** Array position of the `i`-th waiting item, counting from the tail. */
    function Slot(i: nat): nat
      requires Valid() && i < Size()
    {
      if tail + i < Size() then tail + i else tail + i - Size()
    }

    /** The abstract FIFO queue: the waiting items, oldest first. */
    function Contents(): (q: seq<T>)
      requires Valid()
      ensures |q| == Count() && |q| < Size()
    {
      seq(Count(), i requires 0 <= i < Count() => buf[Slot(i)])
    }

    /** Producer side: fails, leaving the buffer as it was, when the slot after
        head is the tail; otherwise stores at the old head and advances head. */
    function Push(item: T): (res: (bool, Ring<T>))
      requires Valid()
      ensures res.1.Valid() && res.1.sizeBits == sizeBits
      ensures res.0 <==> Count() < Size() - 1
      ensures res.0 ==> res.1.Contents() == Contents() + [item]
      ensures res.0 ==> res.1.buf[head] == item && res.1.tail == tail
      ensures !res.0 ==> res.1 == this
    {
      NextIsSuccessor(head);
      var nextHead := Next(head);
      if nextHead == tail then
        (false, this)
      else
        var r' := this.(buf := buf[head := item], head := nextHead);
        assert r'.Count() == Count() + 1;
        assert forall i | 0 <= i < Count() :: r'.Slot(i) == Slot(i) != head;
        assert r'.Slot(Count()) == head;
        (true, r')
    }

    /** Consumer side: fails, leaving the buffer as it was, when tail equals
        head; otherwise yields the slot at tail and advances tail. */
    function Pop(): (res: (Option<T>, Ring<T>))
      requires Valid()
      ensures res.1.Valid() && res.1.sizeBits == sizeBits
      ensures res.0.None? <==> Contents() == []
      ensures res.0.None? ==> res.1 == this
      ensures res.0.Some? ==> res.0.value == Contents()[0] && res.1.Contents() == Contents()[1..]
      ensures res.0.Some? ==> res.1.buf == buf && res.1.head == head
    {
      NextIsSuccessor(tail);
      if tail == head then
        (None, this)
      else
        var r' := this.(tail := Next(tail));
        assert r'.Count() == Count() - 1;
        assert forall i | 0 <= i < r'.Count() :: r'.Slot(i) == Slot(i + 1);
        (Some(buf[tail]), r')
    }

    /** `is_full`: the slot after head is the tail. */
    function IsFull(): (full: bool)
      requires Valid()
      ensures full <==> |Contents()| == Size() - 1
    {
      NextIsSuccessor(head);
      Next(head) == tail
    }

    /** `is_full` answers exactly the question whether `push` would fail. */
    lemma IsFullIffPushFails(item: T)
      requires Valid()
      ensures IsFull() <==> !Push(item).0
    {
    }

    lemma NextIsSuccessor(i: nat)
      requires i < Size()
      ensures Next(i) == if i + 1 == Size() then 0 else i + 1
    {
      MaskLowIsMod(i + 1, sizeBits);
      if i + 1 == Size() {
        DivModUnique(i + 1, Size(), 1, 0);
      } else {
        DivModUnique(i + 1, Size(), 0, i + 1);
      }
    }
  }

  /** A freshly constructed buffer: both indices at zero, every slot holding
      the element type's default value `fill`. */
  function Empty<T>(sizeBits: nat, fill: T): (r: Ring<T>)
    ensures r.Valid() && r.sizeBits == sizeBits && r.Contents() == []
  {
    Ring(sizeBits, seq(Pow2(sizeBits), _ => fill), 0, 0)
  }

  /** Pushes `xs` one by one, keeping the items that were accepted. */
  function PushAll<T>(r: Ring<T>, xs: seq<T>): (res: (seq<bool>, Ring<T>))
    requires r.Valid()
    ensures res.1.Valid() && res.1.sizeBits == r.sizeBits && |res.0| == |xs|
    decreases |xs|
  {
    if xs == [] then ([], r)
    else
      var (ok, r1) := r.Push(xs[0]);
      var (oks, r2) := PushAll(r1, xs[1..]);
      ([ok] + oks, r2)
  }

  /** Pushing never reorders: as long as there is room, the queue grows by
      exactly the pushed items, in order. */
  lemma {:induction false} PushAllAppends<T>(r: Ring<T>, xs: seq<T>)
    requires r.Valid() && |r.Contents()| + |xs| <= r.Size() - 1
    ensures forall i | 0 <= i < |xs| :: PushAll(r, xs).0[i]
    ensures PushAll(r, xs).1.Contents() == r.Contents() + xs
    decreases |xs|
  {
    if xs != [] {
      var (ok, r1) := r.Push(xs[0]);
      assert ok;
      PushAllAppends(r1, xs[1..]);
      assert r.Contents() + [xs[0]] + xs[1..] == r.Contents() + xs;
    }
  }

  /** From empty, exactly `Size - 1` pushes succeed, after which the buffer
      reports full and the next push is refused. */
  lemma FillFromEmpty<T>(sizeBits: nat, fill: T, xs: seq<T>, extra: T)
    requires |xs| == Pow2(sizeBits) - 1
    ensures forall i | 0 <= i < |xs| :: PushAll(Empty(sizeBits, fill), xs).0[i]
    ensures PushAll(Empty(sizeBits, fill), xs).1.Contents() == xs
    ensures PushAll(Empty(sizeBits, fill), xs).1.IsFull()
    ensures !PushAll(Empty(sizeBits, fill), xs).1.Push(extra).0
  {
    PushAllAppends(Empty(sizeBits, fill), xs);
  }

  /** Pops `n` items, oldest first (fewer if the buffer runs dry). */
  function PopN<T>(r: Ring<T>, n: nat): (res: (seq<T>, Ring<T>))
    requires r.Valid()
    ensures res.1.Valid() && res.1.sizeBits == r.sizeBits
    decreases n
  {
    if n == 0 then ([], r)
    else
      match r.Pop()
      case (None, r1) => ([], r1)
      case (Some(x), r1) =>
        var (ys, r2) := PopN(r1, n - 1);
        ([x] + ys, r2)
  }

  /** FIFO across wrap-around: whatever the indices, popping yields the
      queue's items front first, and popping past the end yields nothing more. */
  lemma {:induction false} PopNTakesFront<T>(r: Ring<T>, n: nat)
    requires r.Valid()
    ensures n <= |r.Contents()| ==> PopN(r, n).0 == r.Contents()[..n]
    ensures n <= |r.Contents()| ==> PopN(r, n).1.Contents() == r.Contents()[n..]
    ensures n > |r.Contents()| ==> PopN(r, n).0 == r.Contents() && PopN(r, n).1.Contents() == []
    decreases n
  {
    if n > 0 {
      var (x, r1) := r.Pop();
      if x.Some? {
        PopNTakesFront(r1, n - 1);
        var (ys, r2) := PopN(r1, n - 1);
        assert PopN(r, n) == ([x.value] + ys, r2);
        ConsSlices(r.Contents(), n);
      }
    }
  }

  /** Taking `n` items off a non-empty queue is taking its head, then `n - 1`
      items off the rest. */
  lemma ConsSlices<T>(c: seq<T>, n: nat)
    requires 0 < n && c != []
    ensures n <= |c| ==> c[..n] == [c[0]] + c[1..][..n - 1] && c[n..] == c[1..][n - 1..]
    ensures n > |c| ==> c == [c[0]] + c[1..]
  {
  }

  /** Items pushed are popped in push order: pushing `xs` behind the current
      queue and then popping everything returns the old items followed by `xs`. */
  lemma FifoOrder<T>(r: Ring<T>, xs: seq<T>)
    requires r.Valid() && |r.Contents()| + |xs| <= r.Size() - 1
    ensures PopN(PushAll(r, xs).1, |r.Contents()| + |xs|).0 == r.Contents() + xs
  {
    PushAllAppends(r, xs);
    var r2 := PushAll(r, xs).1;
    var q := r2.Contents();
    assert q == r.Contents() + xs;
    assert |q| == |r.Contents()| + |xs|;
    PopNTakesFront(r2, |q|);
    assert q[..|q|] == q;
  }
}

=== FILE: risk_engine.dfy ===
/** The sharded risk store and scoring (`FastRiskEngine`): per-entity rolling
    state in 1024 shards selected by the 64-bit FNV-1a hash of the entity
    name, lazily created entries, a velocity counter that resets after a
    silence of more than one second, and a double-buffered rule set.
    Locks and atomics are dropped: every operation is one sequential step. */
module RiskEngine {
  import opened Wrappers
  import opened Bits

  const ShardBits: nat := 10
  /** `RISK_MAP_SHARDS`. */
  const ShardCount: nat := 1024
  const FnvOffsetBasis: bv64 := 14695981039346656037
  const FnvPrime: bv64 := 1099511628211
  const NanosPerSecond: nat := 1000000000
  /** 10 000 currency units in micro-units: the upper end of the structuring band. */
  const StructuringLimitMicros: int := 10000 * 1000000
  const BlockThreshold: real := 0.8
  const TwoTo64: nat := 0x1_0000_0000_0000_0000

  type U64 = x: nat | x < TwoTo64

  /** An entity name; each character stands for one byte of the C string. */
  type Key = string

  /** Per-entity rolling state (`EntityState`). The velocity is a count of
      evaluations; `structuring` is carried but never updated by the core. */
  datatype EntityState = EntityState(lastSeen: U64, velocity: nat, structuring: real)

  /** Scoring coefficients (`ModelWeights`), with the structuring threshold
      given directly in micro-units. */
  datatype ModelWeights = ModelWeights(
    velocityWeight: real,
    structuringWeight: real,
    velocityThreshold: real,
    structuringThresholdMicros: int,
    baseline: real)

  datatype RiskResult = RiskResult(score: real, blocked: bool)

  /** The coefficients both rule slots hold after construction. */
  const InitialWeights := ModelWeights(0.6, 0.25, 5.0, 9000 * 1000000, 0.05)
  /** The coefficients `reload_rules` installs. */
  const ReloadedWeights := ModelWeights(0.8, 0.1, 3.0, 8000 * 1000000, 0.05)

  /** The engine: one key-to-state map per shard, two rule slots and the
      index of the active one. */
  datatype Engine = Engine(shards: seq<map<Key, EntityState>>, ruleSets: seq<ModelWeights>, activeIdx: nat)
  {
    ghost predicate Valid() {
      && |shards| == ShardCount
      && |ruleSets| == 2
      && activeIdx < 2
      && (forall j | 0 <= j < 2 :: ruleSets[j].velocityThreshold > 0.0)
      && (forall i, k | 0 <= i < ShardCount && k in shards[i] :: ShardIndex(k) == i)
    }

    function ActiveRules(): ModelWeights
      requires Valid()
    {
      ruleSets[activeIdx]
    }

    /** The state recorded for `k`, if any. */
    function Lookup(k: Key): (s: Option<EntityState>)
      requires Valid()
    {
      var m := shards[ShardIndex(k)];
      if k in m then Some(m[k]) else None
    }
  }

  // ---------------------------------------------------------------------
  // Shard selection
  // ---------------------------------------------------------------------

  function ByteOf(c: char): bv8 { (c as int % 256) as bv8 }

  function KeyBytes(k: Key): (bs: seq<bv8>)
    ensures |bs| == |k| && forall i | 0 <= i < |k| :: bs[i] == ByteOf(k[i])
  {
    seq(|k|, i requires 0 <= i < |k| => ByteOf(k[i]))
  }

  /** One FNV-1a round: xor the byte in, then multiply modulo 2^64. */
  function FnvRound(h: bv64, b: bv8): bv64 { (h ^ (b as bv64)) * FnvPrime }

  /** 64-bit FNV-1a of a byte string: the offset basis with one round per
      byte, first byte first. */
  function Fnv1a(bs: seq<bv8>): bv64
  {
    if bs == [] then FnvOffsetBasis else FnvRound(Fnv1a(bs[..|bs| - 1]), bs[|bs| - 1])
  }

  /** `fnv1a_hash`: the source's loop over the bytes. */
  method Fnv1aHash(bs: seq<bv8>) returns (h: bv64)
    ensures h == Fnv1a(bs)
  {
    h := FnvOffsetBasis;
    var i := 0;
    while i < |bs|
      invariant 0 <= i <= |bs|
      invariant h == Fnv1a(bs[..i])
    {
      assert bs[..i + 1][..i] == bs[..i];
      h := FnvRound(h, bs[i]);
      i := i + 1;
    }
    assert bs[..i] == bs;
  }

  /** The published FNV-1a test vectors for "", "a" and "foobar". */
  lemma Fnv1aTestVectors()
    ensures Fnv1a([]) == 0xcbf29ce484222325
    ensures Fnv1a([0x61]) == 0xaf63dc4c8601ec8c
    ensures Fnv1a([0x66, 0x6f, 0x6f, 0x62, 0x61, 0x72]) == 0x85944171f73967e8
  {
    var a: seq<bv8> := [0x61];
    assert a[..0] == [];
    assert FnvRound(FnvOffsetBasis, 0x61) == 0xaf63dc4c8601ec8c;
    var s: seq<bv8> := [0x66, 0x6f, 0x6f, 0x62, 0x61, 0x72];
    assert Fnv1a(s[..1]) == 0xaf63db4c8601ead9 by {
      assert s[..1][..0] == [];
      assert FnvRound(FnvOffsetBasis, 0x66) == 0xaf63db4c8601ead9;
    }
    assert Fnv1a(s[..2]) == 0x08985907b541d342 by {
      assert s[..2][..1] == s[..1];
      assert FnvRound(0xaf63db4c8601ead9, 0x6f) == 0x08985907b541d342;
    }
    assert Fnv1a(s[..3]) == 0xdcb27518fed9d577 by {
      assert s[..3][..2] == s[..2];
      assert FnvRound(0x08985907b541d342, 0x6f) == 0xdcb27518fed9d577;
    }
    assert Fnv1a(s[..4]) == 0xdd120e790c2512af by {
      assert s[..4][..3] == s[..3];
      assert FnvRound(0xdcb27518fed9d577, 0x62) == 0xdd120e790c2512af;
    }
    assert Fnv1a(s[..5]) == 0xcac165afa2fef40a by {
      assert s[..5][..4] == s[..4];
      assert FnvRound(0xdd120e790c2512af, 0x61) == 0xcac165afa2fef40a;
    }
    assert s[..6] == s;
    assert s[..6][..5] == s[..5];
    assert FnvRound(0xcac165afa2fef40a, 0x72) == 0x85944171f73967e8;
  }

  /** `hash & (RISK_MAP_SHARDS - 1)`: the low ten bits of the key's hash. */
  function ShardIndex(k: Key): (i: nat)
    ensures i < ShardCount
    ensures i == (Fnv1a(KeyBytes(k)) as nat) % ShardCount
  {
    var h := Fnv1a(KeyBytes(k)) as nat;
    MaskLowIsMod(h, ShardBits);
    assert Pow2(ShardBits) == ShardCount;
    MaskLow(h, ShardBits)
  }

  // ---------------------------------------------------------------------
  // Construction and rule reload
  // ---------------------------------------------------------------------

  /** The constructor: empty shards, both rule slots at the initial
      coefficients, slot 0 active. */
  function NewEngine(): (e: Engine)
    ensures e.Valid() && e.ActiveRules() == InitialWeights
    ensures e.ruleSets == [InitialWeights, InitialWeights] && e.activeIdx == 0
    ensures forall k: Key :: e.Lookup(k).None?
  {
    Engine(seq(ShardCount, _ => map[]), [InitialWeights, InitialWeights], 0)
  }

  /** `reload_rules`: writes the fixed reload coefficients into the inactive
      slot, then makes that slot active. The path argument is not read. */
  function ReloadRules(e: Engine, path: string): (e': Engine)
    requires e.Valid()
    ensures e'.Valid()
    ensures e'.ActiveRules() == ReloadedWeights
    ensures e'.activeIdx != e.activeIdx
    ensures e'.ruleSets[e.activeIdx] == e.ruleSets[e.activeIdx]
    ensures e'.shards == e.shards
  {
    var next := if e.activeIdx == 0 then 1 else 0;
    e.(ruleSets := e.ruleSets[next := ReloadedWeights], activeIdx := next)
  }

  /** Reloading twice leaves the reload coefficients in both slots: no
      evaluator can see anything but a complete rule set. */
  lemma ReloadTwice(e: Engine, p1: string, p2: string)
    requires e.Valid()
    ensures ReloadRules(ReloadRules(e, p1), p2).ruleSets == [ReloadedWeights, ReloadedWeights]
    ensures ReloadRules(ReloadRules(e, p1), p2).activeIdx == e.activeIdx
  {
  }

  // ---------------------------------------------------------------------
  // Scoring
  // ---------------------------------------------------------------------

  /** The velocity feature: `v / (2 * threshold)`, saturated at 1. */
  function VelocityScore(v: nat, threshold: real): (s: real)
    requires threshold > 0.0
    ensures 0.0 <= s <= 1.0
    ensures v as real >= 2.0 * threshold ==> s == 1.0
    ensures v as real < 2.0 * threshold ==> s < 1.0 && s * (2.0 * threshold) == v as real
  {
    if v as real > threshold * 2.0 then 1.0 else v as real / (threshold * 2.0)
  }

  /** More evaluations in the window never lower the velocity feature. */
  lemma VelocityScoreMonotone(v1: nat, v2: nat, threshold: real)
    requires threshold > 0.0 && v1 <= v2
    ensures VelocityScore(v1, threshold) <= VelocityScore(v2, threshold)
  {
    var d := threshold * 2.0;
    if v2 as real <= d {
      DivideMonotone(v1 as real, v2 as real, d);
    }
  }

  lemma DivideMonotone(a: real, b: real, d: real)
    requires a <= b && d > 0.0
    ensures a / d <= b / d
  {
    assert b / d - a / d == (b - a) / d;
  }

  /** The structuring feature: 1 exactly inside the band
      `[threshold, 10 000 units)`, else 0. */
  function StructuringScore(amount: int, thresholdMicros: int): (s: real)
    ensures s == 1.0 <==> thresholdMicros <= amount < StructuringLimitMicros
    ensures s == 0.0 || s == 1.0
  {
    if amount >= thresholdMicros && amount < StructuringLimitMicros then 1.0 else 0.0
  }

  /** The linear score `baseline + vs*vw + ss*sw`, capped at 1 from above only,
      and the block decision taken on the capped score. */
  function Score(w: ModelWeights, v: nat, amount: int): (r: RiskResult)
    requires w.velocityThreshold > 0.0
    ensures r.score <= 1.0
    ensures r.blocked <==> r.score > BlockThreshold
    ensures
      var raw := w.baseline + VelocityScore(v, w.velocityThreshold) * w.velocityWeight
                 + StructuringScore(amount, w.structuringThresholdMicros) * w.structuringWeight;
      r.score == if raw > 1.0 then 1.0 else raw
    ensures w.baseline >= 0.0 && w.velocityWeight >= 0.0 && w.structuringWeight >= 0.0 ==> r.score >= 0.0
  {
    var vs := VelocityScore(v, w.velocityThreshold);
    var ss := StructuringScore(amount, w.structuringThresholdMicros);
    var total := w.baseline + vs * w.velocityWeight + ss * w.structuringWeight;
    var capped := if total > 1.0 then 1.0 else total;
    RiskResult(capped, capped > BlockThreshold)
  }

  /** Velocity after an evaluation at `now`: reset to 0 when more than a
      second has passed since `lastSeen` (the difference is taken as an
      unsigned 64-bit subtraction), then incremented. */
  function NextVelocity(s: EntityState, now: U64): (v: nat)
    ensures v >= 1
    ensures v == 1 || v == s.velocity + 1
    ensures now >= s.lastSeen && now - s.lastSeen <= NanosPerSecond ==> v == s.velocity + 1
    ensures now >= s.lastSeen && now - s.lastSeen > NanosPerSecond ==> v == 1
  {
    var elapsed := (now - s.lastSeen) % TwoTo64;
    (if elapsed > NanosPerSecond then 0 else s.velocity) + 1
  }

  /** The mock cold-tier fetch: always the zero state. */
  function ColdFetch(k: Key): (s: EntityState)
    ensures s.lastSeen == 0 && s.velocity == 0
  {
    EntityState(0, 0, 0.0)
  }

  /** The engine with `s` recorded for `k` in `k`'s shard. */
  function Store(e: Engine, k: Key, s: EntityState): (e': Engine)
    requires e.Valid()
    ensures e'.Valid()
    ensures e'.ruleSets == e.ruleSets && e'.activeIdx == e.activeIdx
    ensures e'.Lookup(k) == Some(s)
    ensures forall i | 0 <= i < ShardCount && i != ShardIndex(k) :: e'.shards[i] == e.shards[i]
    ensures forall k2 | k2 != k :: e'.Lookup(k2) == e.Lookup(k2)
    ensures e'.shards[ShardIndex(k)].Keys == e.shards[ShardIndex(k)].Keys + {k}
  {
    var idx := ShardIndex(k);
    e.(shards := e.shards[idx := e.shards[idx][k := s]])
  }

  /** `evaluate`: selects the shard, creates the entry from the cold fetch if
      it is absent, updates velocity and last-seen time, and scores the
      payment with the rule set active at the start of the call. */
  function Evaluate(e: Engine, k: Key, amount: int, now: U64): (res: (RiskResult, Engine))
    requires e.Valid()
    ensures res.1.Valid()
    ensures res.1.ruleSets == e.ruleSets && res.1.activeIdx == e.activeIdx
    ensures res.1.Lookup(k).Some?
    ensures var s := res.1.Lookup(k).value;
      && s.lastSeen == now
      && res.0 == Score(e.ActiveRules(), s.velocity, amount)
      && s.velocity == NextVelocity(if e.Lookup(k).Some? then e.Lookup(k).value else ColdFetch(k), now)
      && s.structuring == (if e.Lookup(k).Some? then e.Lookup(k).value else ColdFetch(k)).structuring
    ensures forall i | 0 <= i < ShardCount && i != ShardIndex(k) :: res.1.shards[i] == e.shards[i]
    ensures forall k2 | k2 != k :: res.1.Lookup(k2) == e.Lookup(k2)
    ensures res.1.shards[ShardIndex(k)].Keys == e.shards[ShardIndex(k)].Keys + {k}
  {
    var state := if e.Lookup(k).Some? then e.Lookup(k).value else ColdFetch(k);
    var v := NextVelocity(state, now);
    (Score(e.ActiveRules(), v, amount), Store(e, k, state.(lastSeen := now, velocity := v)))
  }

  /** The end-to-end scenario of three 9 500.00 payments by one debtor
      within one second under the initial coefficients: velocity features
      0.1, 0.2, 0.3, structuring 1 each time, scores 0.36, 0.42, 0.48, and
      none blocked. */
  lemma ThreePaymentsWithinASecond(k: Key, t0: U64)
    requires t0 + 2 < TwoTo64
    ensures
      var e0 := NewEngine();
      var (r1, e1) := Evaluate(e0, k, 9500 * 1000000, t0);
      var (r2, e2) := Evaluate(e1, k, 9500 * 1000000, t0 + 1);
      var (r3, e3) := Evaluate(e2, k, 9500 * 1000000, t0 + 2);
      && r1 == RiskResult(0.36, false)
      && r2 == RiskResult(0.42, false)
      && r3 == RiskResult(0.48, false)
  {
    var e0 := NewEngine();
    var (r1, e1) := Evaluate(e0, k, 9500 * 1000000, t0);
    assert e1.Lookup(k).value.velocity == 1;
    var (r2, e2) := Evaluate(e1, k, 9500 * 1000000, t0 + 1);
    assert e2.Lookup(k).value.velocity == 2;
    var (r3, e3) := Evaluate(e2, k, 9500 * 1000000, t0 + 2);
    assert e3.Lookup(k).value.velocity == 3;
  }
}

=== FILE: rules_engine.dfy ===
/** The jurisdiction rules of the Python sidecar (`RulesEngine`): a fixed
    policy per jurisdiction, a gambling adjustment that depends on the
    policy's sensitivity, and a flag when the adjusted score passes the
    policy's threshold. */
module RulesEngine {

  datatype Sensitivity = Low | Medium | High

  /** One jurisdiction's configuration. */
  datatype Policy = Policy(riskThreshold: real, gamblingSensitivity: Sensitivity,
                           gdprMasking: bool, requiredChecks: seq<string>)

  const UkPolicy: Policy := Policy(6.0, High, true, ["UKGC", "CompaniesHouse", "VoterRoll"])
  const EuPolicy: Policy := Policy(5.0, Medium, true, ["EUID", "SanctionsMap"])
  const UsPolicy: Policy := Policy(7.0, Low, false, ["OFAC", "FinCEN", "SSN_Trace"])

  /** The configured jurisdictions. */
  const Configs: map<string, Policy> := map["UK" := UkPolicy, "EU" := EuPolicy, "US" := UsPolicy]

  /** `get_policy`: the jurisdiction's own policy, the UK's for any other. */
  function GetPolicy(jurisdiction: string): (p: Policy)
    ensures jurisdiction in Configs ==> p == Configs[jurisdiction]
    ensures jurisdiction !in Configs ==> p == UkPolicy
  {
    if jurisdiction in Configs then Configs[jurisdiction] else UkPolicy
  }

  /** The score added for a gambling risk factor. */
  function GamblingAdjustment(s: Sensitivity): (a: real)
    ensures a >= 0.0
    ensures a == 0.0 <==> s == Low
    ensures s == Medium ==> a == 1.5
    ensures s == High ==> a == 3.0
  {
    match s
    case High => 3.0
    case Medium => 1.5
    case Low => 0.0
  }

  /** `evaluate_risk`: the adjusted score and whether it is above the
      policy's threshold. */
  function EvaluateRisk(baseScore: real, jurisdiction: string, riskFactors: seq<string>)
    : (r: (real, bool))
    ensures r.0 >= baseScore
    ensures "Gambling" !in riskFactors ==> r.0 == baseScore
    ensures "Gambling" in riskFactors ==>
      r.0 == baseScore + GamblingAdjustment(GetPolicy(jurisdiction).gamblingSensitivity)
    ensures r.1 <==> r.0 > GetPolicy(jurisdiction).riskThreshold
  {
    var policy := GetPolicy(jurisdiction);
    var finalScore :=
      if "Gambling" in riskFactors then baseScore + GamblingAdjustment(policy.gamblingSensitivity)
      else baseScore;
    (finalScore, finalScore > policy.riskThreshold)
  }

  /** A higher base score is never flagged less: the flag is monotone. */
  lemma FlagIsMonotone(low: real, high: real, jurisdiction: string, riskFactors: seq<string>)
    requires low <= high
    ensures EvaluateRisk(low, jurisdiction, riskFactors).1 ==> EvaluateRisk(high, jurisdiction, riskFactors).1
    ensures EvaluateRisk(low, jurisdiction, riskFactors).0 <= EvaluateRisk(high, jurisdiction, riskFactors).0
  {
  }

  /** The documented example: a 5.0 gambling payment passes in the US
      (5.0, not flagged) and is flagged in the UK (8.0), and an unknown
      jurisdiction is judged as the UK. */
  lemma GamblingExamples(unknown: string)
    requires unknown !in Configs
    ensures EvaluateRisk(5.0, "US", ["Gambling"]) == (5.0, false)
    ensures EvaluateRisk(5.0, "UK", ["Gambling"]) == (8.0, true)
    ensures EvaluateRisk(5.0, "EU", ["Gambling"]) == (6.5, true)
    ensures EvaluateRisk(5.0, unknown, ["Gambling"]) == (8.0, true)
  {
    assert "Gambling" in ["Gambling"];
  }
}

=== FILE: worker.dfy ===
/** The scoring worker's per-item step and the file-replay ingress
    (`risk_worker` and `FileIngress::run`). Threads, yields and the shutdown
    flag's polling are dropped: the worker drains the inbound buffer item by
    item, and replay turns a file of lines into the payments it enqueues. */
module Worker {
  import opened Wrappers
  import opened Decimal
  import opened RingBuffer
  import opened IsoParser
  import opened RiskEngine

  /** `PaymentRingBuffer` has 2^14 = 16384 slots, `IpcRingBuffer` 2^12 = 4096. */
  const InboundBits: nat := 14
  const OutboundBits: nat := 12
  /** Size of `IpcMessage::data`. */
  const MessageCapacity: nat := 512
  const ForwardThreshold: real := 0.5

  /** The hot-path counters: transactions seen, blocks, outbound drops. */
  datatype Counters = Counters(transactions: nat, blocks: nat, drops: nat)

  /** A forwarded record (`IpcMessage`): its text, whose length is `len`. */
  datatype IpcMessage = IpcMessage(data: string)

  datatype WorkerState = WorkerState(engine: Engine, outbound: Ring<IpcMessage>, counters: Counters)
  {
    ghost predicate Valid() {
      engine.Valid() && outbound.Valid() && outbound.sizeBits == OutboundBits
    }
  }

  // ---------------------------------------------------------------------
  // Amount serialisation
  // ---------------------------------------------------------------------

  /** C++ integer division: truncates toward zero. */
  function TruncDiv(a: int, d: nat): (q: int)
    requires d > 0
    ensures Abs(q) == Abs(a) / d
    ensures a >= 0 ==> q >= 0
    ensures a < 0 ==> q <= 0
  {
    if a >= 0 then a / d else -((-a) / d)
  }

  /** C++ remainder: takes the sign of the dividend. */
  function TruncRem(a: int, d: nat): (r: int)
    requires d > 0
    ensures a == TruncDiv(a, d) * d + r
    ensures -(d as int) < r < d
    ensures a >= 0 ==> r >= 0
    ensures a < 0 ==> r <= 0
  {
    if a >= 0 then a % d else -((-a) % d)
  }

  function Abs(x: int): nat { if x < 0 then -x else x }

  /** `%lld`: the decimal digits of `x`, after a `-` when it is negative. */
  function FormatInt(x: int): (s: string)
    ensures |s| >= 1
    ensures x >= 0 ==> AllDigits(s) && Value(s) == x && (|s| > 1 ==> s[0] != '0')
    ensures x < 0 ==> |s| >= 2 && s[0] == '-' && AllDigits(s[1..]) && Value(s[1..]) == -x
                      && (|s| > 2 ==> s[1] != '0')
  {
    if x < 0 then
      var digits := NatToString(-x);
      assert ("-" + digits)[1..] == digits;
      "-" + digits
    else NatToString(x)
  }

  /** `%lld.%06lld` of `amount / 10^6` and `|amount % 10^6|`. */
  function FormatAmount(amount: int): (s: string)
  {
    FormatInt(TruncDiv(amount, MicrosPerUnit)) + "." + SixDigits(Abs(TruncRem(amount, MicrosPerUnit)))
  }

  /** The decimal text the worker forwards reads back, through the decoder's
      amount routine, as exactly the amount it was made from. */
  lemma FormatAmountRoundTrip(amount: int)
    requires amount > 0
    ensures AmountMicros(FormatAmount(amount)) == amount
  {
    var q := amount / MicrosPerUnit;
    var r := amount % MicrosPerUnit;
    assert FormatAmount(amount) == NatToString(q) + "." + SixDigits(r);
    DecimalTextReads(NatToString(q), SixDigits(r));
  }

  /** Digits, a point and six digits read as `whole * 10^6 + fraction`. */
  lemma DecimalTextReads(whole: string, frac: string)
    requires |whole| >= 1 && AllDigits(whole) && |frac| == 6 && AllDigits(frac)
    ensures AmountMicros(whole + "." + frac) == Value(whole) * MicrosPerUnit + Value(frac)
  {
    var s := whole + "." + frac;
    assert s[0] != '-';
    assert s[..|whole|] == whole;
    LeadingDigitsUnique(s, |whole|);
    assert s[|whole|..] == "." + frac;
    assert ("." + frac)[1..] == frac;
    assert frac[..6] == frac;
    FractionDigitsReadAt(frac, 6);
    assert FractionMicros(frac) == Value(frac);
  }

  /** The JSON text built by the worker's `snprintf`. */
  function Payload(p: PaymentData): string
  {
    "{ \"debtor\": \"" + p.debtorName + "\", \"amount\": " + FormatAmount(p.amount)
      + ", \"uetr\": \"" + p.uetr + "\" }"
  }

  /** Any decoded payment whose amount fits the source's signed 64-bit field
      yields a message that fits the 512-byte buffer, so the length guard
      never discards it. */
  lemma PayloadFits(p: PaymentData)
    requires WellFormed(p) && p.amount < 0x8000_0000_0000_0000
    ensures 0 < |Payload(p)| < MessageCapacity
  {
    var q := p.amount / MicrosPerUnit;
    assert q < Pow10(13) by {
      assert Pow10(13) == 10000000000000;
    }
    NatToStringLength(q, 13);
    assert |FormatAmount(p.amount)| <= 20;
  }

  // ---------------------------------------------------------------------
  // The worker step
  // ---------------------------------------------------------------------

  /** Whether a scored item is offered to the outbound buffer: the score
      exceeds 0.5 and the message length is within `(0, 512)`. */
  predicate Offered(score: real, msg: string) {
    score > ForwardThreshold && 0 < |msg| < MessageCapacity
  }

  /** The body of the worker loop for one popped item, evaluated at time
      `now`: count it, score it, count a block, and offer the high-risk
      record to the outbound buffer, counting a drop if that buffer is full. */
  function ProcessItem(ws: WorkerState, item: PaymentData, now: U64): (ws': WorkerState)
    requires ws.Valid()
    ensures ws'.Valid()
    ensures var (risk, engine') := Evaluate(ws.engine, item.debtorName, item.amount, now);
      && ws'.engine == engine'
      && ws'.counters.transactions == ws.counters.transactions + 1
      && ws'.counters.blocks == ws.counters.blocks + (if risk.blocked then 1 else 0)
      && var offered := Offered(risk.score, Payload(item));
         var full := ws.outbound.IsFull();
         && ws'.counters.drops == ws.counters.drops + (if offered && full then 1 else 0)
         && ws'.outbound.Contents()
            == ws.outbound.Contents() + (if offered && !full then [IpcMessage(Payload(item))] else [])
  {
    var (risk, engine') := Evaluate(ws.engine, item.debtorName, item.amount, now);
    var c := ws.counters.(transactions := ws.counters.transactions + 1);
    var c := if risk.blocked then c.(blocks := c.blocks + 1) else c;
    var msg := Payload(item);
    if Offered(risk.score, msg) then
      var (ok, outbound') := ws.outbound.Push(IpcMessage(msg));
      if ok then WorkerState(engine', outbound', c)
      else WorkerState(engine', ws.outbound, c.(drops := c.drops + 1))
    else
      WorkerState(engine', ws.outbound, c)
  }

  /** The worker step applied to `items` in order, the `i`-th scored at
      `clock[i]`. */
  function ProcessAll(ws: WorkerState, items: seq<PaymentData>, clock: seq<U64>): (ws': WorkerState)
    requires ws.Valid() && |clock| == |items|
    ensures ws'.Valid()
    ensures ws'.counters.transactions == ws.counters.transactions + |items|
    ensures ws.counters.blocks <= ws'.counters.blocks <= ws.counters.blocks + |items|
    ensures ws.counters.drops <= ws'.counters.drops <= ws.counters.drops + |items|
    decreases |items|
  {
    if items == [] then ws
    else ProcessAll(ProcessItem(ws, items[0], clock[0]), items[1..], clock[1..])
  }

  /** The inner drain loop: pops and processes items until the inbound buffer
      is empty; `clock[i]` is the time at which the `i`-th item is scored. */
  function Drain(ws: WorkerState, inbound: Ring<PaymentData>, clock: seq<U64>): (res: (WorkerState, Ring<PaymentData>))
    requires ws.Valid() && inbound.Valid()
    requires |clock| == |inbound.Contents()|
    ensures res.0.Valid() && res.1.Valid() && res.1.Contents() == []
    ensures res.0.counters.transactions == ws.counters.transactions + |inbound.Contents()|
    ensures ws.counters.blocks <= res.0.counters.blocks <= ws.counters.blocks + |inbound.Contents()|
    ensures ws.counters.drops <= res.0.counters.drops <= ws.counters.drops + |inbound.Contents()|
    ensures res.0 == ProcessAll(ws, inbound.Contents(), clock)
    decreases |inbound.Contents()|
  {
    match inbound.Pop()
    case (None, inbound') => (ws, inbound')
    case (Some(item), inbound') =>
      Drain(ProcessItem(ws, item, clock[0]), inbound', clock[1..])
  }

  // ---------------------------------------------------------------------
  // File replay
  // ---------------------------------------------------------------------

  /** One line of the replay file: `None` when the XML loader rejects it. */
  type ReplayLine = Option<XmlDocument>

  function ParseLine(line: ReplayLine): Option<PaymentData>
  {
    match line
    case None => None
    case Some(doc) => Parse(doc)
  }

  /** The values of the successful entries, in order. */
  function Successes<T>(xs: seq<Option<T>>): (out: seq<T>)
    ensures |out| <= |xs|
  {
    if xs == [] then []
    else
      var init := Successes(xs[..|xs| - 1]);
      match xs[|xs| - 1]
      case None => init
      case Some(x) => init + [x]
  }

  lemma {:induction false} SuccessesAppend<T>(a: seq<Option<T>>, b: seq<Option<T>>)
    ensures Successes(a + b) == Successes(a) + Successes(b)
    decreases |b|
  {
    if b == [] {
      assert a + b == a;
    } else {
      var b' := b[..|b| - 1];
      assert (a + b)[..|a + b| - 1] == a + b';
      assert (a + b)[|a + b| - 1] == b[|b| - 1];
      SuccessesAppend(a, b');
    }
  }

  lemma {:induction false} SuccessesSound<T>(xs: seq<Option<T>>, x: T)
    requires x in Successes(xs)
    ensures Some(x) in xs
    decreases |xs|
  {
    var init := xs[..|xs| - 1];
    if x in Successes(init) {
      SuccessesSound(init, x);
    }
  }

  lemma {:induction false} SuccessesComplete<T>(xs: seq<Option<T>>, j: nat)
    requires j < |xs| && xs[j].Some?
    ensures xs[j].value in Successes(xs)
    decreases |xs|
  {
    var init := xs[..|xs| - 1];
    if j < |init| {
      SuccessesComplete(init, j);
      assert init[j] == xs[j];
    }
  }

  /** The decoder's verdict on every line of a file. */
  function ParseLines(lines: seq<ReplayLine>): (parsed: seq<Option<PaymentData>>)
    ensures |parsed| == |lines|
    ensures forall i | 0 <= i < |lines| :: parsed[i] == ParseLine(lines[i])
    ensures forall p | Some(p) in parsed :: WellFormed(p)
  {
    seq(|lines|, i requires 0 <= i < |lines| => ParseLine(lines[i]))
  }

  /** The payments `FileIngress::run` enqueues for a file, in file order:
      lines that fail to load or to decode are skipped. */
  function Replay(lines: seq<ReplayLine>): (out: seq<PaymentData>)
    ensures |out| <= |lines|
    ensures forall p | p in out :: WellFormed(p)
  {
    var parsed := ParseLines(lines);
    var out := Successes(parsed);
    assert forall p | p in out :: Some(p) in parsed by {
      forall p | p in out ensures Some(p) in parsed {
        SuccessesSound(parsed, p);
      }
    }
    out
  }

  /** Replaying two files back to back enqueues the first file's payments,
      then the second's. */
  lemma ReplayAppend(a: seq<ReplayLine>, b: seq<ReplayLine>)
    ensures Replay(a + b) == Replay(a) + Replay(b)
  {
    ParseLinesAppend(a, b);
    SuccessesAppend(ParseLines(a), ParseLines(b));
  }

  lemma ParseLinesAppend(a: seq<ReplayLine>, b: seq<ReplayLine>)
    ensures ParseLines(a + b) == ParseLines(a) + ParseLines(b)
  {
    var whole := ParseLines(a + b);
    var parts := ParseLines(a) + ParseLines(b);
    forall i | 0 <= i < |whole| ensures whole[i] == parts[i] {
      if i < |a| {
        assert (a + b)[i] == a[i];
      } else {
        assert (a + b)[i] == b[i - |a|];
      }
    }
  }

  /** Each enqueued payment is the decoding of some line of the file. */
  lemma ReplaySound(lines: seq<ReplayLine>, p: PaymentData)
    requires p in Replay(lines)
    ensures exists j | 0 <= j < |lines| :: ParseLine(lines[j]) == Some(p)
  {
    SuccessesSound(ParseLines(lines), p);
  }

  /** Each line that decodes contributes its payment. */
  lemma ReplayComplete(lines: seq<ReplayLine>, j: nat)
    requires j < |lines| && ParseLine(lines[j]).Some?
    ensures ParseLine(lines[j]).value in Replay(lines)
  {
    SuccessesComplete(ParseLines(lines), j);
  }

  /** Stopping early (the shutdown flag observed after `k` lines) enqueues a
      prefix of what the whole file would. */
  lemma ReplayPrefix(lines: seq<ReplayLine>, k: nat)
    requires k <= |lines|
    ensures Replay(lines[..k]) <= Replay(lines)
  {
    assert lines[..k] + lines[k..] == lines;
    ReplayAppend(lines[..k], lines[k..]);
    var whole := Replay(lines);
    var front := Replay(lines[..k]);
    assert whole == front + Replay(lines[k..]);
    assert whole[..|front|] == front;
  }

  /** When the inbound buffer has room, replay leaves the decoded payments
      queued behind whatever was already waiting, in file order. */
  lemma ReplayEnqueuesInOrder(inbound: Ring<PaymentData>, lines: seq<ReplayLine>)
    requires inbound.Valid() && |inbound.Contents()| + |Replay(lines)| <= inbound.Size() - 1
    ensures PushAll(inbound, Replay(lines)).1.Contents() == inbound.Contents() + Replay(lines)
  {
    PushAllAppends(inbound, Replay(lines));
  }
}

=== FILE: wrappers.dfy ===
/** Failure-carrying return values shared by every component of the model. */
module Wrappers {

  /** A value that may be absent: a C++ `bool` success flag with an out
      parameter, or a Python lookup that can come back empty. */
  datatype Option<+T> = None | Some(value: T) {
    /** The value, or `default` when it is absent (Python's `dict.get`). */
    function GetOr(default: T): (r: T)
      ensures Some? ==> r == value
      ensures None? ==> r == default
    {
      match this
      case None => default
      case Some(v) => v
    }
  }

  /** A value or the error that prevented it: the model of a Python
      function that can raise. */
  datatype Result<+T, +E> = Ok(value: T) | Err(error: E)
}
